=== FILE: README.md ===
# LongBitSet in Dafny

A model of `LongBitSet`, the fixed-length bit set that backs the cuckoo
filter. A set of `numBits` bits is packed into an array of 64-bit words.
Position `i` lives in word `i >> 6` at bit `i & 63`. `numWords =
bits2words(numBits)` words are in use. The backing array may be longer.
Every position at or past `numBits` is a "ghost bit". The class keeps the
ghost bits clear, and several operations depend on that.

The model is immutable. A `LongBitSet` is a datatype of the backing words,
`numBits` and `numWords`. Each mutating Java method becomes a function or
method that returns the updated value. The abstract value is
`Storage.Members`: the set of positions below `numBits` that are set.
`Storage.Valid` is the ghost-bit invariant. `Storage.WellFormed` is the
weaker shape that both constructors establish.

`bits2words` casts the word count to an `int`, so it is exact only up to
`Storage.MaxBits`, 64 * (2^31 - 1) bits, the most a Java array of words
can hold. Past that the count wraps: the constructors then throw
`NegativeArraySizeException` or build a set with too few words, and
`ensureCapacity` can return a set shorter than requested. The model
computes the wrapped count; `WellFormed` holds only for counts that fit,
which also makes every `(int) (index >> 6)` word index exact.

A Java `long` is modelled as `Words.Word`, a sequence of 64 booleans. Index
`p` is the bit of weight 2^p, so index 63 is the sign bit. The operators
`| & ^ ~` act bit by bit. The shifts `<<`, `>>>` and `>>` reduce their
distance to its low six bits, as Java does. That reduction is written
`n % 64`, which is Dafny's Euclidean remainder and equals `n & 0x3f` for
negative `n` as well. `>>` brings in copies of the sign bit.

`Long.numberOfTrailingZeros` and `Long.numberOfLeadingZeros` are defined
by their meaning: the lowest set bit, and 63 minus the highest set bit.
The word index `index >> 6` is floor division by 64, which Dafny's `/`
computes.

Java `assert` statements become preconditions, for example `0 <= index <
numBits`. Exceptions become `Storage.Result` values. `ArrayUtil.grow` is not
part of this model. `Copies.Grow` stands in for it: it is given the contract
that `ensureCapacity` relies on, and its growth policy is a parameter.

Modules, one per file:

- `Words` (`words.dfy`): Java `long` words and their operators.
- `Storage` (`storage.dfy`):
  - the datatype and its invariant;
  - `bits2words`, the two constructors, `verifyGhostBitsClear`,
    `length` and `getBits`.
- `SingleBit` (`single_bit.dfy`): `get`, `set`, `clear`, `flip`,
  `getAndSet` and `getAndClear` on one index.
- `Scanning` (`scanning.dfy`): `nextSetBit` and `prevSetBit`.
- `Bulk` (`bulk.dfy`): `or`, `xor`, `and`, `andNot`, `intersects` and
  `scanIsEmpty`.
- `Ranges` (`ranges.dfy`): range `flip`, `set` and `clear`.
- `Copies` (`copies.dfy`): `ensureCapacity` and `clone`.
- `Hashing` (`hashing.dfy`): `hashCode`.

In the table, every source path is
`src/java/com/github/mgunlogson/cuckoofilter4j/LongBitSet.java`.

## Model

| member | source | states |
|---|---|---|
| Storage.Bits2Words | src/java/com/github/mgunlogson/cuckoofilter4j/LongBitSet.java:76-81 | the result is a Java `int`, and it brackets `numBits` as `(r - 1) * 64 < numBits <= r * 64` exactly when the word count fits an `int`; 0 bits need 0 words |
| Storage.WordCountPastMaxBits | src/java/com/github/mgunlogson/cuckoofilter4j/LongBitSet.java:76-81 | `MaxBits` bits need 2^31 - 1 words; one bit more gives -2^31 words, and 2^38 bits give 0 words |
| Storage.ConstructorsPastMaxBits | src/java/com/github/mgunlogson/cuckoofilter4j/LongBitSet.java:76-113 | `new LongBitSet(MaxBits + 1)` throws `NegativeArraySizeException`, while both constructors accept 2^38 bits over no words, a set that is not well formed |
| Storage.Bits2WordsIsCeiling | src/java/com/github/mgunlogson/cuckoofilter4j/LongBitSet.java:76-81 | for `0 <= n <= MaxBits` the word count is the ceiling of `n / 64`, `(n + 63) / 64`, and it is 0 exactly when `n` is 0 |
| Storage.New | src/java/com/github/mgunlogson/cuckoofilter4j/LongBitSet.java:89-93 | fails with `NegativeArraySizeException` only when the word count is negative, which for a count that fits means `numBits <= -64`; otherwise the array holds exactly `numWords` clear words, and when the count fits the invariant holds and the set is empty |
| Storage.FromArray | src/java/com/github/mgunlogson/cuckoofilter4j/LongBitSet.java:104-113 | fails with `IllegalArgumentException` exactly when the array has fewer than `bits2words(numBits)` words, wrapped count included; otherwise it adopts the array unchanged with the given `numBits`, well formed when `-64 < numBits <= MaxBits` |
| Storage.VerifyGhostBitsClear | src/java/com/github/mgunlogson/cuckoofilter4j/LongBitSet.java:121-135 | for `0 <= numBits <= MaxBits`, returns true exactly when no position at or past `numBits` is set; for negative `numBits`, which cases throw `IndexOutOfBounds` and which return false |
| Storage.GhostBitsOfLastWord | src/java/com/github/mgunlogson/cuckoofilter4j/LongBitSet.java:128-134 | once the words past `numWords` are zero, the ghost bits are clear exactly when `bits[numWords - 1] & (-1L << numBits)` is zero; nothing needs testing when `numBits % 64 == 0` |
| Storage.GhostBitsOnlyInLastWord | src/java/com/github/mgunlogson/cuckoofilter4j/LongBitSet.java:128-134 | once the words past `numWords` are zero, a set ghost bit can only be a bit of word `numWords - 1` selected by `-1L << numBits`, and only when `numBits % 64 != 0` |
| Storage.GhostBitInLastWord | src/java/com/github/mgunlogson/cuckoofilter4j/LongBitSet.java:128-134 | a bit of word `numWords - 1` selected by `-1L << numBits` is a set ghost bit when `numBits % 64 != 0` |
| Storage.Length | src/java/com/github/mgunlogson/cuckoofilter4j/LongBitSet.java:140-142 | the length never exceeds the capacity of the used words or of the backing array |
| Storage.GetBits | src/java/com/github/mgunlogson/cuckoofilter4j/LongBitSet.java:147-154 | the copy equals the whole backing array, ghost words included |
| SingleBit.Get | src/java/com/github/mgunlogson/cuckoofilter4j/LongBitSet.java:156-170 | true exactly when `index` is a member |
| SingleBit.Set | src/java/com/github/mgunlogson/cuckoofilter4j/LongBitSet.java:172-181 | position `index` becomes set and no other position of the store changes; the members gain `index`; the invariant is preserved |
| SingleBit.GetAndSet | src/java/com/github/mgunlogson/cuckoofilter4j/LongBitSet.java:183-190 | returns the membership of `index` before the call, together with the set that `set(index)` produces |
| SingleBit.Clear | src/java/com/github/mgunlogson/cuckoofilter4j/LongBitSet.java:192-197 | position `index` becomes clear and no other position changes; the members lose `index`; the invariant is preserved |
| SingleBit.GetAndClear | src/java/com/github/mgunlogson/cuckoofilter4j/LongBitSet.java:199-206 | returns the membership of `index` before the call, together with the set that `clear(index)` produces |
| SingleBit.Flip | src/java/com/github/mgunlogson/cuckoofilter4j/LongBitSet.java:390-395 | position `index` is toggled and no other position changes; `index` leaves the members if it was one and joins them otherwise; the invariant is preserved |
| SingleBit.SetThenGet | src/java/com/github/mgunlogson/cuckoofilter4j/LongBitSet.java:172-181 | after `set(i)`, `get(i)` is true and `get(j)` is unchanged for every other `j` |
| SingleBit.ClearThenGet | src/java/com/github/mgunlogson/cuckoofilter4j/LongBitSet.java:192-197 | after `clear(i)`, `get(i)` is false and `get(j)` is unchanged for every other `j` |
| SingleBit.FlipTwice | src/java/com/github/mgunlogson/cuckoofilter4j/LongBitSet.java:390-395 | flipping the same index twice gives back the same set |
| Scanning.NextSetBit | src/java/com/github/mgunlogson/cuckoofilter4j/LongBitSet.java:212-230 | under the invariant, as written: returns the least member at or after `index`, or -1 exactly when there is none, except that a member found past the first word comes back cut to a Java `int`; for sets of at most 2^31 bits the result is exactly that member or -1 |
| Scanning.NextSetBitInLong | src/java/com/github/mgunlogson/cuckoofilter4j/LongBitSet.java:212-230 | with the later-word position computed as a `long`: the least member at or after `index`, or -1 exactly when there is none, for sets of every length |
| Scanning.NextReturned | src/java/com/github/mgunlogson/cuckoofilter4j/LongBitSet.java:218-226 | the value the method returns for the true answer meets the as-written contract, and equals the answer for sets of at most 2^31 bits |
| Scanning.NextUnique | src/java/com/github/mgunlogson/cuckoofilter4j/LongBitSet.java:208-211 | the first set bit at or after `index` is unique, so the as-written result is determined |
| Scanning.NextSetBitWrapsPastIntRange | src/java/com/github/mgunlogson/cuckoofilter4j/LongBitSet.java:225 | when the next member after an `index` below 2^31 is position 2^31, the method as written returns -2^31 |
| Scanning.NextInFirstWord | src/java/com/github/mgunlogson/cuckoofilter4j/LongBitSet.java:215-220 | when `bits[index >> 6] >> index` is non-zero, `index` plus its trailing zeros is the least member at or after `index`, and it lies in the word of `index`; the sign copies that `>>` brings in never decide it |
| Scanning.NextNotInFirstWord | src/java/com/github/mgunlogson/cuckoofilter4j/LongBitSet.java:215-218 | when `bits[index >> 6] >> index` is zero, that word has no bit at or above `index % 64` |
| Scanning.NextInLaterWords | src/java/com/github/mgunlogson/cuckoofilter4j/LongBitSet.java:222-229 | the loop over the later words finds the position of the least member after `index`, which lies in a later word, or -1 when there is none |
| Scanning.PrevSetBit | src/java/com/github/mgunlogson/cuckoofilter4j/LongBitSet.java:236-256 | as written: returns the greatest member at or before `index` cut to a Java `int`, or -1 exactly when there is none; for sets of at most 2^31 bits the result is exactly that member or -1; the invariant is not needed |
| Scanning.PrevSetBitInLong | src/java/com/github/mgunlogson/cuckoofilter4j/LongBitSet.java:236-256 | with the positions computed as `long`s: the greatest member at or before `index`, or -1 exactly when there is none, for sets of every length |
| Scanning.PrevReturned | src/java/com/github/mgunlogson/cuckoofilter4j/LongBitSet.java:243-252 | the value the method returns for the true answer meets the as-written contract, and equals the answer for sets of at most 2^31 bits |
| Scanning.PrevUnique | src/java/com/github/mgunlogson/cuckoofilter4j/LongBitSet.java:232-235 | the last set bit at or before `index` is unique, so the as-written result is determined |
| Scanning.PrevSetBitWrapsPastIntRange | src/java/com/github/mgunlogson/cuckoofilter4j/LongBitSet.java:244-251 | when the greatest member at or before `index` is position 2^31, the method as written returns -2^31 |
| Scanning.PrevInFirstWord | src/java/com/github/mgunlogson/cuckoofilter4j/LongBitSet.java:238-246 | when `bits[i] << (63 - subIndex)` is non-zero, `(i << 6) + subIndex` minus its leading zeros is the greatest member at or before `index` |
| Scanning.PrevNotInFirstWord | src/java/com/github/mgunlogson/cuckoofilter4j/LongBitSet.java:238-243 | when `bits[i] << (63 - subIndex)` is zero, that word has no bit at or below `subIndex` |
| Scanning.PrevInEarlierWords | src/java/com/github/mgunlogson/cuckoofilter4j/LongBitSet.java:248-255 | the loop over the earlier words finds the position of the greatest member before `index`, or -1 when there is none |
| Bulk.Or | src/java/com/github/mgunlogson/cuckoofilter4j/LongBitSet.java:261-267 | the words below `other.numWords` become the OR of both sets' words and the rest are unchanged; when both sets are valid and `other.numBits <= numBits`, the members become the union and the invariant holds |
| Bulk.OrMembers | src/java/com/github/mgunlogson/cuckoofilter4j/LongBitSet.java:261-267 | the word-level outcome of `or`, read position by position, is the union |
| Bulk.OrCanSetGhostBits | src/java/com/github/mgunlogson/cuckoofilter4j/LongBitSet.java:262 | the assertion `other.numWords <= numWords` does not protect the invariant: a 10-bit set OR a 60-bit set holding 50 gets a set ghost bit |
| Bulk.Xor | src/java/com/github/mgunlogson/cuckoofilter4j/LongBitSet.java:272-278 | the words below `other.numWords` become the XOR of both sets' words and the rest are unchanged; under the same conditions as `or`, the members become the symmetric difference |
| Bulk.XorMembers | src/java/com/github/mgunlogson/cuckoofilter4j/LongBitSet.java:272-278 | the word-level outcome of `xor`, read position by position, is the symmetric difference |
| Bulk.Intersects | src/java/com/github/mgunlogson/cuckoofilter4j/LongBitSet.java:283-292 | true exactly when some word pair below both word counts has a non-zero AND; for valid sets, exactly when the sets share a member |
| Bulk.And | src/java/com/github/mgunlogson/cuckoofilter4j/LongBitSet.java:297-307 | the words below both word counts become the AND; this set's words from `other.numWords` up to `numWords` become zero; the words past `numWords` are unchanged; the invariant is preserved; the members become the intersection when the other set is valid |
| Bulk.AndMembers | src/java/com/github/mgunlogson/cuckoofilter4j/LongBitSet.java:297-307 | the word-level outcome of `and`, read position by position, is the intersection |
| Bulk.AndNot | src/java/com/github/mgunlogson/cuckoofilter4j/LongBitSet.java:312-317 | the words below both word counts lose the other set's bits and the rest, tail included, are unchanged; the invariant is preserved; the members become the difference when the other set is valid |
| Bulk.AndNotMembers | src/java/com/github/mgunlogson/cuckoofilter4j/LongBitSet.java:312-317 | the word-level outcome of `andNot`, read position by position, is the difference |
| Bulk.ScanIsEmpty | src/java/com/github/mgunlogson/cuckoofilter4j/LongBitSet.java:326-341 | true exactly when every word below `numWords` is zero; under the invariant, exactly when the set has no member |
| Ranges.MaskSelectsRange | src/java/com/github/mgunlogson/cuckoofilter4j/LongBitSet.java:356-369 | the masks `-1L << start` and `-1L >>> -end` select exactly the positions of `[start, end)` in the first and last word; interior words hold only positions of the range and other words none |
| Ranges.FlipRange | src/java/com/github/mgunlogson/cuckoofilter4j/LongBitSet.java:349-385 | exactly the positions of `[start, end)` are toggled, for any number of words spanned; the invariant is preserved; the members inside the range and the non-members inside it swap |
| Ranges.FlipPositions | src/java/com/github/mgunlogson/cuckoofilter4j/LongBitSet.java:373-384 | the word-level outcome of range `flip` toggles exactly the positions of the range |
| Ranges.SetRange | src/java/com/github/mgunlogson/cuckoofilter4j/LongBitSet.java:403-428 | as written: adds the range in the first and last word and zeroes every interior word; adds exactly `[start, end)` only when the range spans at most two words; the invariant is preserved |
| Ranges.SetRangeFilled | src/java/com/github/mgunlogson/cuckoofilter4j/LongBitSet.java:403-428 | with interior words filled with `-1L`: adds exactly the positions of `[start, end)` and changes nothing else, for any span; the invariant is preserved |
| Ranges.SetPositions | src/java/com/github/mgunlogson/cuckoofilter4j/LongBitSet.java:418-427 | the word-level outcome of range `set` gives the as-written effect when interior words are zeroed, and the exact union when they are filled or absent |
| Ranges.SetRangeLosesInteriorWords | src/java/com/github/mgunlogson/cuckoofilter4j/LongBitSet.java:425 | on an empty 256-bit set, `set(0, 192)` as written leaves position 100 clear although it lies in the range |
| Ranges.ClearRange | src/java/com/github/mgunlogson/cuckoofilter4j/LongBitSet.java:436-465 | exactly the positions of `[start, end)` are cleared and nothing else changes; the invariant is preserved; the members lose the range |
| Ranges.ClearPositions | src/java/com/github/mgunlogson/cuckoofilter4j/LongBitSet.java:452-464 | the word-level outcome of range `clear`, with the inverted masks, clears exactly the positions of the range |
| Copies.Grow | src/java/com/github/mgunlogson/cuckoofilter4j/LongBitSet.java:66-67 | the grown array has at least `minSize` and fewer than 2^31 words, starts with the old array and is zero after it; an array already long enough comes back unchanged |
| Copies.EnsureCapacity | src/java/com/github/mgunlogson/cuckoofilter4j/LongBitSet.java:57-71 | for any set, returns the same set when `numBits < length()`; otherwise a valid set whose length is a multiple of 64, whose old positions keep their values and whose new words are clear, and for a well-formed set the members are kept exactly when the old ghost bits were clear; the length exceeds `numBits` up to `MaxBits - 64`, and a word count that wraps below the array length leaves the store as it is |
| Copies.GrownStore | src/java/com/github/mgunlogson/cuckoofilter4j/LongBitSet.java:64-67 | the store starts with the old words and is zero after them, has fewer than 2^31 words, holds more than `numBits` bits up to `MaxBits - 64`, and is the old store when the `int` word count is below its length |
| Copies.EnsureCapacityPastMaxBits | src/java/com/github/mgunlogson/cuckoofilter4j/LongBitSet.java:64-66 | for 2^38 bits requested of a one-word set the wrapped word count is below the array length, so a result meeting `EnsureCapacity`'s contract keeps the store and has only 64 bits |
| Copies.GrownMembers | src/java/com/github/mgunlogson/cuckoofilter4j/LongBitSet.java:62-69 | a set that uses every word of an extended store sets exactly the old positions; for a well-formed old set it keeps every old member, and gains no others exactly when the old ghost bits are clear |
| Copies.Clone | src/java/com/github/mgunlogson/cuckoofilter4j/LongBitSet.java:468-470 | the clone equals the original: same words, `numBits` and `numWords` |
| Hashing.HashCode | src/java/com/github/mgunlogson/cuckoofilter4j/LongBitSet.java:492-502 | the hash is a Java `int` |
| Hashing.HashReadsUsedWords | src/java/com/github/mgunlogson/cuckoofilter4j/LongBitSet.java:494-501 | the hash depends only on `numWords` and the words below it |
| Hashing.FoldOfZeros | src/java/com/github/mgunlogson/cuckoofilter4j/LongBitSet.java:494-498 | folding zero words leaves the accumulator at `0L` |
| Hashing.EmptyHash | src/java/com/github/mgunlogson/cuckoofilter4j/LongBitSet.java:499-501 | a set whose used words are zero hashes to the `int` `0x98761234`, not 0 |
| Hashing.EqualSetsHashAlike | src/java/com/github/mgunlogson/cuckoofilter4j/LongBitSet.java:492-502 | valid sets of the same length with the same members have the same hash |

## Left out

- Concurrency: the backing `AtomicLongArray` is modelled as a plain sequence. Each `get` or `set` of a word is atomic in Java, but a whole operation is not; interleavings are not modelled.
- `equals`: it compares `numBits` and then the `AtomicLongArray` objects, which do not override `equals`, so it compares identity. Object identity has no counterpart in an immutable model.
- Serialization (`serialVersionUID`) and the logger carry no behaviour of the set.
- `tools/stress/src/org/apache/cassandra/stress/generate/values/GeneratorConfig.java` does not use `LongBitSet`.
- Java `int` overflow is modelled where it happens: in `bits2words`, in `numWords + 1` of `ensureCapacity`, in the `(i << 6)` results of `nextSetBit` and `prevSetBit`, and in the `(int)` cast and offset of `hashCode`, all through `Words.Wrap32`. The `(int) (index >> 6)` word indices need no wrap, since an index lies below a `numBits` of at most `MaxBits`. `(long) arr.length << 6` is `long` arithmetic.
- `numBits` is an unbounded integer rather than a `long`; the wrap of `numBits - 1` at `Long.MIN_VALUE` is not modelled.
- Operations other than the constructors, `bits2words`, `ensureCapacity` and `verifyGhostBitsClear` are modelled only on well-formed sets, whose word count fits an `int`; those four accept every set the constructors can build, including one past `MaxBits`. On a set built past `MaxBits` with too few words, Java's methods read outside the array.
- Storage.Bits2WordsIsCeiling: the ceiling is stated only up to `MaxBits`, because past it `bits2words` wraps.
- Storage.VerifyGhostBitsClear: its result is stated for `numBits` between `-64 * 2^31 - 63` and `MaxBits`; past those bounds the word count wraps and the result is not stated.
- Copies.EnsureCapacity: the length exceeds `numBits` only up to `MaxBits - 64`; past it `numWords + 1` or the word count itself wraps. Members are compared only for a well-formed input set, since `Members` is defined only there.
- The `assert verifyGhostBitsClear()` in the array constructor only runs with Java assertions enabled. `Storage.FromArray` therefore does not check the ghost bits. `Storage.VerifyGhostBitsClear` models the check itself.
- `ArrayUtil.grow` is not part of this model. `Copies.Grow` stands in for it, and how far past the requested size it grows is the `slack` parameter. A requested size that the array already meets, a negative one included, leaves the array as it is; what `ArrayUtil.grow` itself does with a negative size is not modelled.
- Java `assert` statements on indices are modelled as preconditions. What an out-of-range index would do with assertions disabled is not modelled.
- Hashing.HashCode: its contract only bounds the result. The fold itself is stated by `Hashing.Fold`, and the properties are the lemmas about it.

## Findings

| source | as written | input that shows it | evidently intended | confidence | as-written member | corrected member |
|---|---|---|---|---|---|---|
| src/java/com/github/mgunlogson/cuckoofilter4j/LongBitSet.java:425 | range `set` stores `0L` into every word strictly between the first and the last word of the range | an empty 256-bit set and `set(0, 192)`: word 1 is an interior word, so position 100 stays clear | store `-1L`, so that every position of `[start, end)` becomes set | high (not executed) | Ranges.SetRangeLosesInteriorWords | Ranges.SetRangeFilled |
| src/java/com/github/mgunlogson/cuckoofilter4j/LongBitSet.java:225 | `nextSetBit` computes a position found past the first word as `(i << 6) + numberOfTrailingZeros(word)` with `i` an `int`, so it wraps | a set of at least 2^31 + 1 bits whose least member at or after `index = 0` is position 2^31: the result is -2^31 | compute `((long) i << 6) + numberOfTrailingZeros(word)`, as the first-word branch already computes a `long`; the class exists for sets of more than 2^31 bits | high (not executed) | Scanning.NextSetBitWrapsPastIntRange | Scanning.NextSetBitInLong |
| src/java/com/github/mgunlogson/cuckoofilter4j/LongBitSet.java:244-251 | `prevSetBit` computes every result as `(i << 6) + …` with `i` an `int`, so it wraps | a set of at least 2^31 + 1 bits holding position 2^31 and `index = 2^31`: the result is -2^31 | compute the results in `long` arithmetic | high (not executed) | Scanning.PrevSetBitWrapsPastIntRange | Scanning.PrevSetBitInLong |
| src/java/com/github/mgunlogson/cuckoofilter4j/LongBitSet.java:262 | `or` only asserts `other.numWords <= numWords`, so a longer `other` with the same word count copies its members into ghost bits; `xor` at line 273 does the same; lines 97-99 and 116-117 require the ghost bits clear | an empty 10-bit set OR a 60-bit set holding position 50: both use one word, and the result has ghost bit 50 set | assert `other.numBits <= numBits`, under which the result keeps the invariant and holds the union | medium (not executed) | Bulk.OrCanSetGhostBits | Bulk.Or |

=== FILE: bulk.dfy ===
/**
 * The word-wise operations `or`, `xor`, `and`, `andNot`, `intersects` and
 * `scanIsEmpty`. The binary ones walk the words both sets have, from
 * position `min(numWords, other.numWords) - 1` down to 0.
 */
module Bulk {
  import opened Words
  import opened Storage
  import SingleBit

  function Min(a: int, b: int): int {
    if a <= b then a else b
  }

  /**
   * `or(other)`: every word below `other.numWords` becomes the OR of the two
   * words; the rest are unchanged. The union is exact when the other set is
   * no longer than this one.
   */
  method Or(bs: LongBitSet, other: LongBitSet) returns (r: LongBitSet)
    requires WellFormed(bs) && WellFormed(other) && other.numWords <= bs.numWords
    ensures WellFormed(r) && r.numBits == bs.numBits && |r.bits| == |bs.bits|
    ensures forall w :: 0 <= w < |bs.bits| ==>
              r.bits[w] == if w < other.numWords then Words.Or(bs.bits[w], other.bits[w]) else bs.bits[w]
    ensures Valid(bs) && Valid(other) && other.numBits <= bs.numBits ==>
              Valid(r) && Members(r) == Members(bs) + Members(other)
  {
    var pos := Min(bs.numWords, other.numWords);
    r := bs;
    while pos > 0
      invariant 0 <= pos <= other.numWords
      invariant r.numBits == bs.numBits && r.numWords == bs.numWords && |r.bits| == |bs.bits|
      invariant forall w :: 0 <= w < |bs.bits| ==>
                  r.bits[w] == if pos <= w < other.numWords then Words.Or(bs.bits[w], other.bits[w]) else bs.bits[w]
    {
      pos := pos - 1;
      r := r.(bits := r.bits[pos := Words.Or(r.bits[pos], other.bits[pos])]);
    }
    if Valid(bs) && Valid(other) && other.numBits <= bs.numBits {
      OrMembers(bs, other, r);
    }
  }

  /** The word-level OR of `or`, read position by position: a position is set exactly when either set has it, and the members are the union. */
  lemma OrMembers(bs: LongBitSet, other: LongBitSet, r: LongBitSet)
    requires Valid(bs) && Valid(other) && other.numBits <= bs.numBits && other.numWords <= bs.numWords
    requires r.numBits == bs.numBits && r.numWords == bs.numWords && |r.bits| == |bs.bits|
    requires forall w :: 0 <= w < |bs.bits| ==>
               r.bits[w] == if w < other.numWords then Words.Or(bs.bits[w], other.bits[w]) else bs.bits[w]
    ensures forall j :: 0 <= j < 64 * |bs.bits| ==>
              IsSet(r, j) == (IsSet(bs, j) || (j < 64 * |other.bits| && IsSet(other, j)))
    ensures Valid(r) && Members(r) == Members(bs) + Members(other)
  {
    forall j | 0 <= j < 64 * |bs.bits|
      ensures IsSet(r, j) == (IsSet(bs, j) || (j < 64 * |other.bits| && IsSet(other, j)))
    {
      if j / 64 >= other.numWords && j < 64 * |other.bits| {
        assert !IsSet(other, j);
      }
    }
  }

  /**
   * The source only asserts `other.numWords <= numWords`. With equal word
   * counts but a longer other set, `or` copies the other set's members past
   * `numBits` into ghost bits: a 10-bit empty set OR a 60-bit set holding 50
   * has position 50 set though it is not below 10.
   */
  lemma OrCanSetGhostBits(bs: LongBitSet, other: LongBitSet, r: LongBitSet)
    requires bs == New(10).value && other == SingleBit.Set(New(60).value, 50)
    requires r.numBits == bs.numBits && |r.bits| == |bs.bits| && r.bits[0] == Words.Or(bs.bits[0], other.bits[0])
    ensures Valid(bs) && Valid(other) && other.numWords <= bs.numWords
    ensures !Valid(r)
  {
    PositionOf(other, 0, 50);
    PositionOf(r, 0, 50);
    assert IsSet(r, 50);
  }

  /**
   * `xor(other)`: every word below `other.numWords` becomes the XOR of the
   * two words; the rest are unchanged. The symmetric difference is exact
   * when the other set is no longer than this one.
   */
  method Xor(bs: LongBitSet, other: LongBitSet) returns (r: LongBitSet)
    requires WellFormed(bs) && WellFormed(other) && other.numWords <= bs.numWords
    ensures WellFormed(r) && r.numBits == bs.numBits && |r.bits| == |bs.bits|
    ensures forall w :: 0 <= w < |bs.bits| ==>
              r.bits[w] == if w < other.numWords then Words.Xor(bs.bits[w], other.bits[w]) else bs.bits[w]
    ensures Valid(bs) && Valid(other) && other.numBits <= bs.numBits ==>
              Valid(r) && Members(r) == (Members(bs) - Members(other)) + (Members(other) - Members(bs))
  {
    var pos := Min(bs.numWords, other.numWords);
    r := bs;
    while pos > 0
      invariant 0 <= pos <= other.numWords
      invariant r.numBits == bs.numBits && r.numWords == bs.numWords && |r.bits| == |bs.bits|
      invariant forall w :: 0 <= w < |bs.bits| ==>
                  r.bits[w] == if pos <= w < other.numWords then Words.Xor(bs.bits[w], other.bits[w]) else bs.bits[w]
    {
      pos := pos - 1;
      r := r.(bits := r.bits[pos := Words.Xor(r.bits[pos], other.bits[pos])]);
    }
    if Valid(bs) && Valid(other) && other.numBits <= bs.numBits {
      XorMembers(bs, other, r);
    }
  }

  /** The word-level XOR of `xor`, read position by position: a position is set exactly when one set has it, and the members are the symmetric difference. */
  lemma XorMembers(bs: LongBitSet, other: LongBitSet, r: LongBitSet)
    requires Valid(bs) && Valid(other) && other.numBits <= bs.numBits && other.numWords <= bs.numWords
    requires r.numBits == bs.numBits && r.numWords == bs.numWords && |r.bits| == |bs.bits|
    requires forall w :: 0 <= w < |bs.bits| ==>
               r.bits[w] == if w < other.numWords then Words.Xor(bs.bits[w], other.bits[w]) else bs.bits[w]
    ensures forall j :: 0 <= j < 64 * |bs.bits| ==>
              IsSet(r, j) == (IsSet(bs, j) != (j < 64 * |other.bits| && IsSet(other, j)))
    ensures Valid(r) && Members(r) == (Members(bs) - Members(other)) + (Members(other) - Members(bs))
  {
    forall j | 0 <= j < 64 * |bs.bits|
      ensures IsSet(r, j) == (IsSet(bs, j) != (j < 64 * |other.bits| && IsSet(other, j)))
    {
      if j / 64 >= other.numWords && j < 64 * |other.bits| {
        assert !IsSet(other, j);
      }
    }
  }

  /**
   * `and(other)`: every word below both word counts becomes the AND of the
   * two words, and this set's words from `other.numWords` to `numWords` are
   * cleared. The intersection is exact when the other set's ghost bits are
   * clear.
   */
  method And(bs: LongBitSet, other: LongBitSet) returns (r: LongBitSet)
    requires WellFormed(bs) && WellFormed(other)
    ensures WellFormed(r) && r.numBits == bs.numBits && |r.bits| == |bs.bits|
    ensures forall w :: 0 <= w < |bs.bits| ==>
              r.bits[w] == if w < Min(bs.numWords, other.numWords) then Words.And(bs.bits[w], other.bits[w])
                           else if w < bs.numWords then Zero
                           else bs.bits[w]
    ensures Valid(bs) ==> Valid(r)
    ensures Valid(other) ==> Members(r) == Members(bs) * Members(other)
  {
    var shared := Min(bs.numWords, other.numWords);
    var pos := shared;
    r := bs;
    while pos > 0
      invariant 0 <= pos <= shared
      invariant r.numBits == bs.numBits && r.numWords == bs.numWords && |r.bits| == |bs.bits|
      invariant forall w :: 0 <= w < |bs.bits| ==>
                  r.bits[w] == if pos <= w < shared then Words.And(bs.bits[w], other.bits[w]) else bs.bits[w]
    {
      pos := pos - 1;
      r := r.(bits := r.bits[pos := Words.And(r.bits[pos], other.bits[pos])]);
    }
    if bs.numWords > other.numWords {
      var i := other.numWords;
      while i < bs.numWords
        invariant other.numWords <= i <= bs.numWords
        invariant r.numBits == bs.numBits && r.numWords == bs.numWords && |r.bits| == |bs.bits|
        invariant forall w :: 0 <= w < |bs.bits| ==>
                    r.bits[w] == if w < shared then Words.And(bs.bits[w], other.bits[w])
                                 else if w < i then Zero
                                 else bs.bits[w]
      {
        r := r.(bits := r.bits[i := Zero]);
        i := i + 1;
      }
    }
    AndMembers(bs, other, r);
  }

  /** The word-level AND of `and`, read position by position: the invariant is kept, and the members are the intersection when the other set is valid. */
  lemma AndMembers(bs: LongBitSet, other: LongBitSet, r: LongBitSet)
    requires WellFormed(bs) && WellFormed(other)
    requires r.numBits == bs.numBits && r.numWords == bs.numWords && |r.bits| == |bs.bits|
    requires forall w :: 0 <= w < |bs.bits| ==>
               r.bits[w] == if w < Min(bs.numWords, other.numWords) then Words.And(bs.bits[w], other.bits[w])
                            else if w < bs.numWords then Zero
                            else bs.bits[w]
    ensures forall j :: 0 <= j < 64 * |bs.bits| ==>
              IsSet(r, j) == (IsSet(bs, j) && (j < 64 * bs.numWords ==> j < 64 * other.numWords && IsSet(other, j)))
    ensures Valid(bs) ==> Valid(r)
    ensures Valid(other) ==> Members(r) == Members(bs) * Members(other)
  {
    forall j | 0 <= j < 64 * |bs.bits|
      ensures IsSet(r, j) == (IsSet(bs, j) && (j < 64 * bs.numWords ==> j < 64 * other.numWords && IsSet(other, j)))
    {
      if j / 64 < Min(bs.numWords, other.numWords) {
        assert j < 64 * other.numWords;
      }
    }
  }

  /**
   * `andNot(other)`: every word below both word counts loses the bits set
   * in the other set's word; the rest are unchanged. The difference is exact
   * when the other set's ghost bits are clear.
   */
  method AndNot(bs: LongBitSet, other: LongBitSet) returns (r: LongBitSet)
    requires WellFormed(bs) && WellFormed(other)
    ensures WellFormed(r) && r.numBits == bs.numBits && |r.bits| == |bs.bits|
    ensures forall w :: 0 <= w < |bs.bits| ==>
              r.bits[w] == if w < Min(bs.numWords, other.numWords) then Words.And(bs.bits[w], Not(other.bits[w]))
                           else bs.bits[w]
    ensures Valid(bs) ==> Valid(r)
    ensures Valid(other) ==> Members(r) == Members(bs) - Members(other)
  {
    var shared := Min(bs.numWords, other.numWords);
    var pos := shared;
    r := bs;
    while pos > 0
      invariant 0 <= pos <= shared
      invariant r.numBits == bs.numBits && r.numWords == bs.numWords && |r.bits| == |bs.bits|
      invariant forall w :: 0 <= w < |bs.bits| ==>
                  r.bits[w] == if pos <= w < shared then Words.And(bs.bits[w], Not(other.bits[w])) else bs.bits[w]
    {
      pos := pos - 1;
      r := r.(bits := r.bits[pos := Words.And(r.bits[pos], Not(other.bits[pos]))]);
    }
    AndNotMembers(bs, other, r);
  }

  /** The word-level AND-NOT of `andNot`, read position by position: the invariant is kept, and the members are the difference when the other set is valid. */
  lemma AndNotMembers(bs: LongBitSet, other: LongBitSet, r: LongBitSet)
    requires WellFormed(bs) && WellFormed(other)
    requires r.numBits == bs.numBits && r.numWords == bs.numWords && |r.bits| == |bs.bits|
    requires forall w :: 0 <= w < |bs.bits| ==>
               r.bits[w] == if w < Min(bs.numWords, other.numWords) then Words.And(bs.bits[w], Not(other.bits[w]))
                            else bs.bits[w]
    ensures forall j :: 0 <= j < 64 * |bs.bits| ==>
              IsSet(r, j) == (IsSet(bs, j) && !(j < 64 * Min(bs.numWords, other.numWords) && IsSet(other, j)))
    ensures Valid(bs) ==> Valid(r)
    ensures Valid(other) ==> Members(r) == Members(bs) - Members(other)
  {
    forall j | 0 <= j < 64 * |bs.bits|
      ensures IsSet(r, j) == (IsSet(bs, j) && !(j < 64 * Min(bs.numWords, other.numWords) && IsSet(other, j)))
    {
      if j / 64 < Min(bs.numWords, other.numWords) {
        assert j < 64 * Min(bs.numWords, other.numWords);
      }
    }
  }

  /** `intersects(other)`: some word below both word counts shares a set bit with the other set's word. */
  method Intersects(bs: LongBitSet, other: LongBitSet) returns (r: bool)
    requires WellFormed(bs) && WellFormed(other)
    ensures r <==> exists w :: 0 <= w < Min(bs.numWords, other.numWords) && Words.And(bs.bits[w], other.bits[w]) != Zero
    ensures Valid(bs) && Valid(other) ==> (r <==> Members(bs) * Members(other) != {})
  {
    var pos := Min(bs.numWords, other.numWords);
    while pos > 0
      invariant 0 <= pos <= Min(bs.numWords, other.numWords)
      invariant forall w :: pos <= w < Min(bs.numWords, other.numWords) ==> Words.And(bs.bits[w], other.bits[w]) == Zero
    {
      pos := pos - 1;
      if Words.And(bs.bits[pos], other.bits[pos]) != Zero {
        if Valid(bs) && Valid(other) {
          CommonMember(bs, other, pos);
        }
        return true;
      }
    }
    if Valid(bs) && Valid(other) {
      NoCommonMember(bs, other);
    }
    return false;
  }

  /** A word pair with a common bit gives a common member. */
  lemma CommonMember(bs: LongBitSet, other: LongBitSet, w: int)
    requires Valid(bs) && Valid(other) && 0 <= w < Min(bs.numWords, other.numWords)
    requires Words.And(bs.bits[w], other.bits[w]) != Zero
    ensures Members(bs) * Members(other) != {}
  {
    var q := NumberOfTrailingZeros(Words.And(bs.bits[w], other.bits[w]));
    PositionOf(bs, w, q);
    PositionOf(other, w, q);
    assert 64 * w + q in Members(bs) * Members(other);
  }

  /** With no word pair sharing a bit, the sets are disjoint. */
  lemma NoCommonMember(bs: LongBitSet, other: LongBitSet)
    requires Valid(bs) && Valid(other)
    requires forall w :: 0 <= w < Min(bs.numWords, other.numWords) ==> Words.And(bs.bits[w], other.bits[w]) == Zero
    ensures Members(bs) * Members(other) == {}
  {
    forall j | 0 <= j < bs.numBits && 0 <= j < other.numBits
      ensures !(IsSet(bs, j) && IsSet(other, j))
    {
      assert !Words.And(bs.bits[j / 64], other.bits[j / 64])[j % 64];
    }
  }

  /**
   * `scanIsEmpty()`: every word below `numWords` is zero, which under the
   * ghost-bit invariant means the set is empty.
   */
  method ScanIsEmpty(bs: LongBitSet) returns (r: bool)
    requires WellFormed(bs)
    ensures r <==> forall w :: 0 <= w < bs.numWords ==> bs.bits[w] == Zero
    ensures Valid(bs) ==> (r <==> Members(bs) == {})
  {
    var i := 0;
    while i < bs.numWords
      invariant 0 <= i <= bs.numWords
      invariant forall w :: 0 <= w < i ==> bs.bits[w] == Zero
    {
      if bs.bits[i] != Zero {
        if Valid(bs) {
          var q := NumberOfTrailingZeros(bs.bits[i]);
          PositionOf(bs, i, q);
          assert 64 * i + q in Members(bs);
        }
        return false;
      }
      i := i + 1;
    }
    if Valid(bs) {
      forall j | 0 <= j < bs.numBits
        ensures !IsSet(bs, j)
      {
        assert bs.bits[j / 64] == Zero;
      }
    }
    return true;
  }
}

=== FILE: copies.dfy ===
/**
 * The operations that build a new `LongBitSet` from an existing one:
 * `clone` and the static `ensureCapacity`.
 */
module Copies {
  import opened Words
  import opened Storage

  /**
   * The contract `ensureCapacity` relies on from `ArrayUtil.grow(arr,
   * minSize)`, which is not part of this model: an array of at least
   * `minSize` words that starts with a copy of `arr` and is zero after it,
   * and `arr` itself when it is already long enough. How far past `minSize`
   * it grows is its own policy; `slack` stands for that choice, within the
   * length a Java array can have.
   */
  function Grow(arr: seq<Word>, minSize: int, slack: nat): (r: seq<Word>)
    requires |arr| < TwoTo31 && minSize < TwoTo31
    ensures minSize <= |r| < TwoTo31 && |arr| <= |r| && r[..|arr|] == arr
    ensures forall w :: |arr| <= w < |r| ==> r[w] == Zero
    ensures minSize <= |arr| ==> r == arr
  {
    if minSize <= |arr| then
      arr
    else
      var extra := minSize - |arr| + slack;
      arr + Repeat(Zero, if extra < TwoTo31 - |arr| then extra else TwoTo31 - 1 - |arr|)
  }

  /**
   * `ensureCapacity(bits, numBits)`: `bits` itself when it already has
   * more than `numBits` bits; otherwise a set over the (possibly grown)
   * copy of its backing store that uses every word of it, so its length is
   * a multiple of 64. Every position of the old store keeps its value and
   * the new words are clear. The members carry over exactly only when the
   * ghost bits of `bits` are clear: the new length covers them, so
   * otherwise they become members. The length exceeds `numBits` while
   * `bits2words(numBits) + 1` is an `int`; past that the word count wraps,
   * and a count that wraps below the array length leaves the store as it
   * is. Only the array length of `bits` is read, so any set is accepted,
   * including one built past `MaxBits`.
   */
  method EnsureCapacity(bs: LongBitSet, numBits: int, slack: nat) returns (r: LongBitSet)
    requires |bs.bits| < TwoTo31
    ensures numBits < bs.numBits ==> r == bs
    ensures bs.numBits <= numBits ==>
              && Valid(r) && r.numBits % 64 == 0 && r.numBits == 64 * |r.bits|
              && |bs.bits| <= |r.bits| && r.bits[..|bs.bits|] == bs.bits
              && (forall w :: |bs.bits| <= w < |r.bits| ==> r.bits[w] == Zero)
              && (forall j :: 0 <= j < 64 * |r.bits| ==> IsSet(r, j) == (j < 64 * |bs.bits| && IsSet(bs, j)))
    ensures bs.numBits <= numBits && WellFormed(bs) ==>
              && Members(bs) <= Members(r)
              && (Valid(bs) <==> Members(r) == Members(bs))
    ensures bs.numBits <= numBits <= MaxBits - 64 ==> numBits < r.numBits
    ensures bs.numBits <= numBits && Bits2Words(numBits) < |bs.bits| ==> r.bits == bs.bits
  {
    if numBits < bs.numBits {
      return bs;
    }
    var arr := GrownStore(bs, numBits, slack);
    var made := FromArray(arr, 64 * |arr|);
    r := made.value;
    GrownMembers(bs, r);
  }

  /**
   * The store of `ensureCapacity`'s result: the backing words, grown to
   * `numWords + 1` words when `numWords = bits2words(numBits)` is not below
   * their number.
   */
  method GrownStore(bs: LongBitSet, numBits: int, slack: nat) returns (arr: seq<Word>)
    requires |bs.bits| < TwoTo31 && bs.numBits <= numBits
    ensures |bs.bits| <= |arr| < TwoTo31 && arr[..|bs.bits|] == bs.bits
    ensures forall w :: |bs.bits| <= w < |arr| ==> arr[w] == Zero
    ensures numBits <= MaxBits - 64 ==> numBits < 64 * |arr|
    ensures Bits2Words(numBits) < |bs.bits| ==> arr == bs.bits
  {
    var numWords := Bits2Words(numBits);
    arr := GetBits(bs);
    if numWords >= |arr| {
      // `numWords + 1` is `int` arithmetic.
      arr := Grow(arr, Wrap32(numWords + 1), slack);
    }
    if numBits <= MaxBits - 64 {
      WrapInRange(numWords + 1);
    }
  }

  /**
   * With 2^38 bits requested of a one-word set, the word count wraps to 0,
   * so any `r` meeting `EnsureCapacity`'s contract for that request is a
   * set of 64 bits over the same store: fewer bits than were asked for.
   */
  lemma EnsureCapacityPastMaxBits(bs: LongBitSet, r: LongBitSet)
    requires bs == New(64).value
    requires bs.numBits <= 0x40_0000_0000 ==> r.numBits == 64 * |r.bits|
    requires bs.numBits <= 0x40_0000_0000 && Bits2Words(0x40_0000_0000) < |bs.bits| ==> r.bits == bs.bits
    ensures r.bits == bs.bits && r.numBits == 64 < 0x40_0000_0000
  {
    WordCountPastMaxBits();
  }

  /**
   * A set that uses every word of a store extending `bs`'s with clear
   * words sets exactly the positions `bs` sets; when `bs` is well formed it
   * has every member of `bs`, and no other member exactly when the ghost
   * bits of `bs` are clear.
   */
  lemma GrownMembers(bs: LongBitSet, r: LongBitSet)
    requires WellFormed(r)
    requires r.numBits == 64 * |r.bits|
    requires |bs.bits| <= |r.bits| && r.bits[..|bs.bits|] == bs.bits
    requires forall w :: |bs.bits| <= w < |r.bits| ==> r.bits[w] == Zero
    ensures Valid(r)
    ensures forall j :: 0 <= j < 64 * |r.bits| ==> IsSet(r, j) == (j < 64 * |bs.bits| && IsSet(bs, j))
    ensures WellFormed(bs) ==> Members(bs) <= Members(r)
    ensures WellFormed(bs) ==> (Valid(bs) <==> Members(r) == Members(bs))
  {
    forall j | 0 <= j < 64 * |r.bits|
      ensures IsSet(r, j) == (j < 64 * |bs.bits| && IsSet(bs, j))
    {
      var w := j / 64;
      if w < |bs.bits| {
        assert r.bits[w] == r.bits[..|bs.bits|][w];
      }
    }
    if WellFormed(bs) && !Valid(bs) {
      var j :| 0 <= j < 64 * |bs.bits| && bs.numBits <= j && IsSet(bs, j);
      assert j in Members(r) - Members(bs);
    }
  }

  /** `clone()`: a set over a copy of the backing store, with the same `numBits`; it equals the original. */
  method Clone(bs: LongBitSet) returns (r: LongBitSet)
    requires WellFormed(bs)
    ensures r == bs
  {
    var arr := GetBits(bs);
    var made := FromArray(arr, bs.numBits);
    r := made.value;
  }
}

=== FILE: hashing.dfy ===
/**
 * `hashCode()`: the used words, from the last down to the first, are
 * folded into a 64-bit accumulator by XOR followed by a left rotation by
 * one; the two halves of the accumulator are then XORed together, cut to a
 * Java `int` and offset by the constant `0x98761234` so that the empty set
 * does not hash to 0.
 */
module Hashing {
  import opened Words
  import opened Storage

  /** Java `Long.rotateLeft(h, 1)`, written in the source as `(h << 1) | (h >>> 63)`. */
  function RotateLeft1(h: Word): Word {
    Or(Shl(h, 1), Ushr(h, 63))
  }

  /**
   * The accumulator after the loop has visited `ws[|ws| - 1]` down to
   * `ws[0]`, starting from `0L`.
   */
  function Fold(ws: seq<Word>): Word
    decreases |ws|
  {
    if |ws| == 0 then Zero else RotateLeft1(Xor(Fold(ws[1..]), ws[0]))
  }

  /** The value of bits `[0, |b|)` read as an unsigned binary number, bit 0 lowest. */
  function Unsigned(b: seq<bool>): (r: nat)
    ensures (forall p :: 0 <= p < |b| ==> !b[p]) <==> r == 0
    decreases |b|
  {
    if |b| == 0 then 0 else (if b[0] then 1 else 0) + 2 * Unsigned(b[1..])
  }

  /** Java's `(int)` cast of a `long`: its low 32 bits as a signed `int`. */
  function ToInt(w: Word): int {
    Wrap32(Unsigned(w[..32]))
  }

  /** The `int` literal `0x98761234`, which is negative in Java. */
  const HashOffset: int := Wrap32(0x9876_1234)

  /** `hashCode()`: a Java `int` computed from the used words alone. */
  function HashCode(bs: LongBitSet): (r: int)
    requires WellFormed(bs)
    ensures -TwoTo31 <= r < TwoTo31
  {
    var h := Fold(bs.bits[..bs.numWords]);
    Wrap32(ToInt(Xor(Shr(h, 32), h)) + HashOffset)
  }

  /** Folding only zero words leaves the accumulator at `0L`. */
  lemma {:induction false} FoldOfZeros(ws: seq<Word>)
    requires forall w :: 0 <= w < |ws| ==> ws[w] == Zero
    ensures Fold(ws) == Zero
    decreases |ws|
  {
    if |ws| > 0 {
      FoldOfZeros(ws[1..]);
      assert Xor(Zero, ws[0]) == Zero;
      assert RotateLeft1(Zero) == Zero;
    }
  }

  /** The hash reads nothing but `numWords` and the words below it. */
  lemma HashReadsUsedWords(a: LongBitSet, b: LongBitSet)
    requires WellFormed(a) && WellFormed(b)
    requires a.numWords == b.numWords && a.bits[..a.numWords] == b.bits[..b.numWords]
    ensures HashCode(a) == HashCode(b)
  {
  }

  /** A set whose used words are all zero, the empty set included, hashes to `0x98761234`, not 0. */
  lemma EmptyHash(bs: LongBitSet)
    requires WellFormed(bs)
    requires forall w :: 0 <= w < bs.numWords ==> bs.bits[w] == Zero
    ensures HashCode(bs) == HashOffset == 0x9876_1234 - TwoTo32
  {
    FoldOfZeros(bs.bits[..bs.numWords]);
    assert Xor(Shr(Zero, 32), Zero) == Zero;
    ZeroIsIntZero();
    OffsetIsNegative();
  }

  /** `(int) 0L` is 0. */
  lemma ZeroIsIntZero()
    ensures ToInt(Zero) == 0
  {
    assert Unsigned(Zero[..32]) == 0;
  }

  /** The literal `0x98761234` denotes a negative `int`, and adding 0 to it does not wrap. */
  lemma OffsetIsNegative()
    ensures HashOffset == 0x9876_1234 - TwoTo32
    ensures Wrap32(0 + HashOffset) == HashOffset
  {
  }

  /**
   * Two sets of the same length with the same members and clear ghost bits
   * hash alike: their used words agree bit for bit. Without the invariant a
   * set ghost bit in the last used word would change the hash.
   */
  lemma EqualSetsHashAlike(a: LongBitSet, b: LongBitSet)
    requires Valid(a) && Valid(b) && a.numBits == b.numBits
    requires Members(a) == Members(b)
    ensures HashCode(a) == HashCode(b)
  {
    forall w | 0 <= w < a.numWords
      ensures a.bits[w] == b.bits[w]
    {
      forall q | 0 <= q < 64
        ensures a.bits[w][q] == b.bits[w][q]
      {
        PositionOf(a, w, q);
        PositionOf(b, w, q);
        if 64 * w + q < a.numBits {
          assert IsSet(a, 64 * w + q) <==> 64 * w + q in Members(a);
          assert IsSet(b, 64 * w + q) <==> 64 * w + q in Members(b);
        }
      }
    }
    assert a.bits[..a.numWords] == b.bits[..b.numWords];
    HashReadsUsedWords(a, b);
  }
}

=== FILE: ranges.dfy ===
/**
 * The range operations `flip(start, end)`, `set(start, end)` and
 * `clear(start, end)`. Each one works on the half-open range
 * [start, end): the first word is combined with the mask `-1L << start`,
 * the last word with `-1L >>> -end`, the words strictly between them are
 * overwritten, and a range inside one word uses the AND of both masks.
 * An empty range (`end <= start`) changes nothing.
 */
module Ranges {
  import opened Words
  import opened Storage

  /** The positions of the half-open range [lo, hi). */
  ghost function Interval(lo: int, hi: int): (r: set<int>)
    ensures forall j :: j in r <==> lo <= j < hi
    decreases hi - lo
  {
    if hi <= lo then {} else Interval(lo, hi - 1) + {hi - 1}
  }

  /** What a range operation writes into the words strictly between the first and the last. */
  datatype Interior = Complemented | Zeroed | Filled

  function InteriorWord(k: Interior, w: Word): Word {
    match k
    case Complemented => Not(w)
    case Zeroed => Zero
    case Filled => AllOnes
  }

  /**
   * The word-level outcome of a range operation on [start, end): word
   * `start / 64` becomes `single` when the range lies inside it and
   * `first` otherwise, the words strictly between the first and the last
   * are rewritten as `k` says, word `(end - 1) / 64` becomes `last`, and
   * every other word is unchanged.
   */
  ghost predicate WordsUpdated(bs: LongBitSet, r: LongBitSet, start: int, end: int,
                               single: Word, first: Word, k: Interior, last: Word)
  {
    var sw := start / 64;
    var ew := (end - 1) / 64;
    && r.numBits == bs.numBits && r.numWords == bs.numWords && |r.bits| == |bs.bits|
    && forall w :: 0 <= w < |bs.bits| ==>
         r.bits[w] == (if sw == ew && w == sw then single
                       else if w == sw then first
                       else if sw < w < ew then InteriorWord(k, bs.bits[w])
                       else if w == ew then last
                       else bs.bits[w])
  }

  /**
   * How bit `p` of word `w` relates to the range [start, end): words
   * outside the first..last span hold no position of it, interior words
   * hold only positions of it, and in the first and last word the masks
   * `-1L << start` and `-1L >>> -end` pick out exactly its positions.
   */
  lemma MaskSelectsRange(start: int, end: int, w: int, p: int)
    requires 0 <= start < end && 0 <= w && 0 <= p < 64
    ensures var sw, ew, j := start / 64, (end - 1) / 64, 64 * w + p;
            && (w < sw || ew < w ==> !(start <= j < end))
            && (sw < w < ew ==> start <= j < end)
            && (w == sw && sw < ew ==> (start <= j < end <==> StartMask(start)[p]))
            && (sw < w && w == ew ==> (start <= j < end <==> EndMask(end)[p]))
            && (w == sw && sw == ew ==> (start <= j < end <==> And(StartMask(start), EndMask(end))[p]))
  {
    StartMaskBits(start);
    EndMaskBits(end);
  }

  /** The words a range operation leaves below `start / 64` and above `(end - 1) / 64` are in range of the store. */
  lemma RangeWordsInStore(bs: LongBitSet, start: int, end: int)
    requires WellFormed(bs) && 0 <= start < end <= bs.numBits
    ensures 0 <= start / 64 <= (end - 1) / 64 < bs.numWords <= |bs.bits|
  {
  }

  /**
   * Rewrites words `from` up to `to` (exclusive) as `k` says: the loop
   * over the interior words shared by the three range operations.
   */
  method UpdateInterior(bs: LongBitSet, from: int, to: int, k: Interior) returns (r: LongBitSet)
    requires 0 <= from <= to <= |bs.bits|
    ensures r.numBits == bs.numBits && r.numWords == bs.numWords && |r.bits| == |bs.bits|
    ensures forall w :: 0 <= w < |bs.bits| && !(from <= w < to) ==> r.bits[w] == bs.bits[w]
    ensures forall w :: from <= w < to ==> r.bits[w] == InteriorWord(k, bs.bits[w])
  {
    r := bs;
    var i := from;
    while i < to
      invariant from <= i <= to
      invariant r.numBits == bs.numBits && r.numWords == bs.numWords && |r.bits| == |bs.bits|
      invariant forall w :: 0 <= w < |bs.bits| && !(from <= w < i) ==> r.bits[w] == bs.bits[w]
      invariant forall w :: from <= w < i ==> r.bits[w] == InteriorWord(k, bs.bits[w])
    {
      r := r.(bits := r.bits[i := InteriorWord(k, r.bits[i])]);
      i := i + 1;
    }
  }

  /**
   * `flip(start, end)`: every position in [start, end) is toggled and no
   * other position changes, so the members inside the range and the
   * non-members inside it swap places.
   */
  method FlipRange(bs: LongBitSet, start: int, end: int) returns (r: LongBitSet)
    requires WellFormed(bs) && 0 <= start < bs.numBits && 0 <= end <= bs.numBits
    ensures WellFormed(r) && r.numBits == bs.numBits && |r.bits| == |bs.bits|
    ensures forall j :: 0 <= j < 64 * |bs.bits| ==> IsSet(r, j) == (IsSet(bs, j) != (start <= j < end))
    ensures Valid(bs) ==> Valid(r)
    ensures Members(r) == (Members(bs) - Interval(start, end)) + (Interval(start, end) - Members(bs))
  {
    if end <= start {
      return bs;
    }
    RangeWordsInStore(bs, start, end);
    var sw, ew := start / 64, (end - 1) / 64;
    var startMask, endMask := StartMask(start), EndMask(end);
    if sw == ew {
      r := bs.(bits := bs.bits[sw := Xor(bs.bits[sw], And(startMask, endMask))]);
    } else {
      r := bs.(bits := bs.bits[sw := Xor(bs.bits[sw], startMask)]);
      r := UpdateInterior(r, sw + 1, ew, Complemented);
      r := r.(bits := r.bits[ew := Xor(r.bits[ew], endMask)]);
    }
    FlipPositions(bs, start, end, r);
  }

  /** The word-level outcome of `flip(start, end)` toggles exactly the positions of the range. */
  lemma FlipPositions(bs: LongBitSet, start: int, end: int, r: LongBitSet)
    requires WellFormed(bs) && 0 <= start < end <= bs.numBits
    requires start / 64 < |bs.bits| && (end - 1) / 64 < |bs.bits|
    requires WordsUpdated(bs, r, start, end,
                          Xor(bs.bits[start / 64], And(StartMask(start), EndMask(end))),
                          Xor(bs.bits[start / 64], StartMask(start)),
                          Complemented,
                          Xor(bs.bits[(end - 1) / 64], EndMask(end)))
    ensures WellFormed(r)
    ensures forall j :: 0 <= j < 64 * |bs.bits| ==> IsSet(r, j) == (IsSet(bs, j) != (start <= j < end))
    ensures Valid(bs) ==> Valid(r)
    ensures Members(r) == (Members(bs) - Interval(start, end)) + (Interval(start, end) - Members(bs))
  {
    forall j | 0 <= j < 64 * |bs.bits|
      ensures IsSet(r, j) == (IsSet(bs, j) != (start <= j < end))
    {
      MaskSelectsRange(start, end, j / 64, j % 64);
    }
  }

  /**
   * The effect of `set(start, end)` as written: the first and last words
   * gain the positions of the range they hold, but every word strictly
   * between them is overwritten with `0L`, so its positions end up clear
   * although they lie in the range.
   */
  ghost predicate SetRangeEffect(bs: LongBitSet, start: int, end: int, r: LongBitSet)
    requires WellFormed(bs)
  {
    && WellFormed(r) && r.numBits == bs.numBits && |r.bits| == |bs.bits|
    && forall j :: 0 <= j < 64 * |bs.bits| ==>
         IsSet(r, j) == (if start < end && start / 64 < j / 64 < (end - 1) / 64 then false
                         else IsSet(bs, j) || start <= j < end)
  }

  /**
   * `set(start, end)` as the source writes it. When the range touches at
   * most two words there is no interior word and it adds exactly the
   * positions of the range.
   */
  method SetRange(bs: LongBitSet, start: int, end: int) returns (r: LongBitSet)
    requires WellFormed(bs) && 0 <= start < bs.numBits && 0 <= end <= bs.numBits
    ensures SetRangeEffect(bs, start, end, r)
    ensures Valid(bs) ==> Valid(r)
    ensures (end - 1) / 64 <= start / 64 + 1 ==>
              && (forall j :: 0 <= j < 64 * |bs.bits| ==> IsSet(r, j) == (IsSet(bs, j) || start <= j < end))
              && Members(r) == Members(bs) + Interval(start, end)
  {
    if end <= start {
      return bs;
    }
    RangeWordsInStore(bs, start, end);
    var sw, ew := start / 64, (end - 1) / 64;
    var startMask, endMask := StartMask(start), EndMask(end);
    if sw == ew {
      r := bs.(bits := bs.bits[sw := Or(bs.bits[sw], And(startMask, endMask))]);
    } else {
      r := bs.(bits := bs.bits[sw := Or(bs.bits[sw], startMask)]);
      r := UpdateInterior(r, sw + 1, ew, Zeroed);
      r := r.(bits := r.bits[ew := Or(r.bits[ew], endMask)]);
    }
    SetPositions(bs, start, end, Zeroed, r);
  }

  /**
   * `set(start, end)` with the interior words filled with `-1L`: it adds
   * exactly the positions of the range, however many words it spans.
   */
  method SetRangeFilled(bs: LongBitSet, start: int, end: int) returns (r: LongBitSet)
    requires WellFormed(bs) && 0 <= start < bs.numBits && 0 <= end <= bs.numBits
    ensures WellFormed(r) && r.numBits == bs.numBits && |r.bits| == |bs.bits|
    ensures forall j :: 0 <= j < 64 * |bs.bits| ==> IsSet(r, j) == (IsSet(bs, j) || start <= j < end)
    ensures Valid(bs) ==> Valid(r)
    ensures Members(r) == Members(bs) + Interval(start, end)
  {
    if end <= start {
      return bs;
    }
    RangeWordsInStore(bs, start, end);
    var sw, ew := start / 64, (end - 1) / 64;
    var startMask, endMask := StartMask(start), EndMask(end);
    if sw == ew {
      r := bs.(bits := bs.bits[sw := Or(bs.bits[sw], And(startMask, endMask))]);
    } else {
      r := bs.(bits := bs.bits[sw := Or(bs.bits[sw], startMask)]);
      r := UpdateInterior(r, sw + 1, ew, Filled);
      r := r.(bits := r.bits[ew := Or(r.bits[ew], endMask)]);
    }
    SetPositions(bs, start, end, Filled, r);
  }

  /**
   * The word-level outcome of a range `set` whose interior words are
   * zeroed (as written) or filled (as intended).
   */
  lemma SetPositions(bs: LongBitSet, start: int, end: int, k: Interior, r: LongBitSet)
    requires WellFormed(bs) && 0 <= start < end <= bs.numBits && k != Complemented
    requires start / 64 < |bs.bits| && (end - 1) / 64 < |bs.bits|
    requires WordsUpdated(bs, r, start, end,
                          Or(bs.bits[start / 64], And(StartMask(start), EndMask(end))),
                          Or(bs.bits[start / 64], StartMask(start)),
                          k,
                          Or(bs.bits[(end - 1) / 64], EndMask(end)))
    ensures k == Zeroed ==> SetRangeEffect(bs, start, end, r)
    ensures Valid(bs) ==> Valid(r)
    ensures k == Filled || (end - 1) / 64 <= start / 64 + 1 ==>
              && (forall j :: 0 <= j < 64 * |bs.bits| ==> IsSet(r, j) == (IsSet(bs, j) || start <= j < end))
              && Members(r) == Members(bs) + Interval(start, end)
  {
    SetWordBits(bs, start, end, k, r);
  }

  /** Bit by bit, a range `set` adds the range except in interior words, which it zeroes or fills. */
  lemma SetWordBits(bs: LongBitSet, start: int, end: int, k: Interior, r: LongBitSet)
    requires WellFormed(bs) && 0 <= start < end <= bs.numBits && k != Complemented
    requires start / 64 < |bs.bits| && (end - 1) / 64 < |bs.bits|
    requires WordsUpdated(bs, r, start, end,
                          Or(bs.bits[start / 64], And(StartMask(start), EndMask(end))),
                          Or(bs.bits[start / 64], StartMask(start)),
                          k,
                          Or(bs.bits[(end - 1) / 64], EndMask(end)))
    ensures forall j :: 0 <= j < 64 * |bs.bits| ==>
              IsSet(r, j) == (if start / 64 < j / 64 < (end - 1) / 64 then k == Filled
                              else IsSet(bs, j) || start <= j < end)
  {
    forall j | 0 <= j < 64 * |bs.bits|
      ensures IsSet(r, j) == (if start / 64 < j / 64 < (end - 1) / 64 then k == Filled
                              else IsSet(bs, j) || start <= j < end)
    {
      MaskSelectsRange(start, end, j / 64, j % 64);
    }
  }

  /**
   * `clear(start, end)`: every position in [start, end) is cleared and no
   * other position changes.
   */
  method ClearRange(bs: LongBitSet, start: int, end: int) returns (r: LongBitSet)
    requires WellFormed(bs) && 0 <= start < bs.numBits && 0 <= end <= bs.numBits
    ensures WellFormed(r) && r.numBits == bs.numBits && |r.bits| == |bs.bits|
    ensures forall j :: 0 <= j < 64 * |bs.bits| ==> IsSet(r, j) == (IsSet(bs, j) && !(start <= j < end))
    ensures Valid(bs) ==> Valid(r)
    ensures Members(r) == Members(bs) - Interval(start, end)
  {
    if end <= start {
      return bs;
    }
    RangeWordsInStore(bs, start, end);
    var sw, ew := start / 64, (end - 1) / 64;
    var startMask, endMask := Not(StartMask(start)), Not(EndMask(end));
    if sw == ew {
      r := bs.(bits := bs.bits[sw := And(bs.bits[sw], Or(startMask, endMask))]);
    } else {
      r := bs.(bits := bs.bits[sw := And(bs.bits[sw], startMask)]);
      r := UpdateInterior(r, sw + 1, ew, Zeroed);
      r := r.(bits := r.bits[ew := And(r.bits[ew], endMask)]);
    }
    ClearPositions(bs, start, end, r);
  }

  /** The word-level outcome of `clear(start, end)` clears exactly the positions of the range. */
  lemma ClearPositions(bs: LongBitSet, start: int, end: int, r: LongBitSet)
    requires WellFormed(bs) && 0 <= start < end <= bs.numBits
    requires start / 64 < |bs.bits| && (end - 1) / 64 < |bs.bits|
    requires WordsUpdated(bs, r, start, end,
                          And(bs.bits[start / 64], Or(Not(StartMask(start)), Not(EndMask(end)))),
                          And(bs.bits[start / 64], Not(StartMask(start))),
                          Zeroed,
                          And(bs.bits[(end - 1) / 64], Not(EndMask(end))))
    ensures WellFormed(r)
    ensures forall j :: 0 <= j < 64 * |bs.bits| ==> IsSet(r, j) == (IsSet(bs, j) && !(start <= j < end))
    ensures Valid(bs) ==> Valid(r)
    ensures Members(r) == Members(bs) - Interval(start, end)
  {
    forall j | 0 <= j < 64 * |bs.bits|
      ensures IsSet(r, j) == (IsSet(bs, j) && !(start <= j < end))
    {
      MaskSelectsRange(start, end, j / 64, j % 64);
    }
  }

  /**
   * On a 256-bit set with nothing in it, `set(0, 192)` as written leaves
   * position 100 clear although it lies in the range: word 1 is an
   * interior word and is overwritten with `0L`.
   */
  lemma SetRangeLosesInteriorWords(r: LongBitSet)
    requires SetRangeEffect(New(256).value, 0, 192, r)
    ensures 100 in Interval(0, 192) && 100 !in Members(r)
  {
    PositionOf(New(256).value, 1, 36);
  }
}

=== FILE: scanning.dfy ===
/**
 * `nextSetBit` and `prevSetBit`: the nearest set position at or after, and
 * at or before, a given index. Both first look at the word holding the
 * index, with the bits on the far side of the index shifted out, and then
 * walk whole words.
 */
module Scanning {
  import opened Words
  import opened Storage

  /** `r` is the least member at or above `index`, or -1 when there is none. */
  ghost predicate IsNextSetBit(bs: LongBitSet, index: int, r: int)
    requires WellFormed(bs) && 0 <= index < bs.numBits
  {
    && (r == -1 <==> forall j :: index <= j < bs.numBits ==> j !in Members(bs))
    && (r != -1 ==> index <= r < bs.numBits && r in Members(bs))
    && (r != -1 ==> forall j :: index <= j < r ==> j !in Members(bs))
  }

  /** `r` is the greatest member at or below `index`, or -1 when there is none. */
  ghost predicate IsPrevSetBit(bs: LongBitSet, index: int, r: int)
    requires WellFormed(bs) && 0 <= index < bs.numBits
  {
    && (r == -1 <==> forall j :: 0 <= j <= index ==> j !in Members(bs))
    && (r != -1 ==> 0 <= r <= index && r in Members(bs))
    && (r != -1 ==> forall j :: r < j <= index ==> j !in Members(bs))
  }

  /**
   * What `nextSetBit` returns when the answer is `t`. A hit in the first
   * word is `index + numberOfTrailingZeros(word)`, a `long` sum. A hit in a
   * later word is `(i << 6) + numberOfTrailingZeros(word)` with `i` an
   * `int`: an `int` computation, so a position of 2^31 or more comes back
   * reduced to 32 bits.
   */
  function NextAsReturned(index: int, t: int): int {
    if t == -1 || t / 64 == index / 64 then t else Wrap32(t)
  }

  /** `r` is what `nextSetBit(index)` as written returns: the answer, reduced to an `int` when it lies past the first word. */
  ghost predicate NextSetBitAsWritten(bs: LongBitSet, index: int, r: int)
    requires WellFormed(bs) && 0 <= index < bs.numBits
  {
    exists t :: IsNextSetBit(bs, index, t) && r == NextAsReturned(index, t)
  }

  /**
   * `nextSetBit(index)`. The first word is shifted with the arithmetic `>>`,
   * so copies of its sign bit fill the top; they never decide the result,
   * because a set sign bit is itself a set position at or after `index`. The
   * result lies below `numBits` only because the ghost bits are clear. A hit
   * in a later word is computed in `int` arithmetic, so the result is exact
   * only for sets of at most 2^31 bits.
   */
  method NextSetBit(bs: LongBitSet, index: int) returns (r: int)
    requires Valid(bs) && 0 <= index < bs.numBits
    ensures NextSetBitAsWritten(bs, index, r)
    ensures bs.numBits <= TwoTo31 ==> IsNextSetBit(bs, index, r)
  {
    var i := index / 64;
    var word := Shr(bs.bits[i], index);
    if word != Zero {
      r := index + NumberOfTrailingZeros(word);
      NextInFirstWord(bs, index, r);
      NextReturned(bs, index, r, r);
    } else {
      NextNotInFirstWord(bs, index);
      var t := NextInLaterWords(bs, index);
      // `(i << 6) + numberOfTrailingZeros(word)`: each `int` operation
      // wraps, which together is the position reduced to 32 bits.
      r := if t == -1 then -1 else Wrap32(t);
      NextReturned(bs, index, t, r);
    }
  }

  /**
   * `nextSetBit(index)` with the later-word result computed in `long`
   * arithmetic, `((long) i << 6) + numberOfTrailingZeros(word)`: the least
   * member at or after `index`, or -1, for sets of any length.
   */
  method NextSetBitInLong(bs: LongBitSet, index: int) returns (r: int)
    requires Valid(bs) && 0 <= index < bs.numBits
    ensures IsNextSetBit(bs, index, r)
  {
    var i := index / 64;
    var word := Shr(bs.bits[i], index);
    if word != Zero {
      r := index + NumberOfTrailingZeros(word);
      NextInFirstWord(bs, index, r);
    } else {
      NextNotInFirstWord(bs, index);
      r := NextInLaterWords(bs, index);
    }
  }

  /** The value returned for the answer `t` meets the as-written contract, and is `t` itself for sets of at most 2^31 bits. */
  lemma NextReturned(bs: LongBitSet, index: int, t: int, r: int)
    requires WellFormed(bs) && 0 <= index < bs.numBits
    requires IsNextSetBit(bs, index, t) && r == NextAsReturned(index, t)
    ensures NextSetBitAsWritten(bs, index, r)
    ensures bs.numBits <= TwoTo31 ==> IsNextSetBit(bs, index, r)
  {
    if t != -1 {
      WrapInRange(t);
    }
  }

  /** There is only one answer to `nextSetBit`. */
  lemma NextUnique(bs: LongBitSet, index: int, t: int, u: int)
    requires WellFormed(bs) && 0 <= index < bs.numBits
    requires IsNextSetBit(bs, index, t) && IsNextSetBit(bs, index, u)
    ensures t == u
  {
    if t != -1 && u != -1 {
      assert !(t < u) && !(u < t);
    }
  }

  /**
   * When the next member after `index < 2^31` is position 2^31, which lies
   * in word 2^25, `nextSetBit` as written returns -2^31: `(i << 6)`
   * overflows the `int`.
   */
  lemma NextSetBitWrapsPastIntRange(bs: LongBitSet, index: int, r: int)
    requires Valid(bs) && 0 <= index < TwoTo31 < bs.numBits
    requires IsNextSetBit(bs, index, TwoTo31)
    requires NextSetBitAsWritten(bs, index, r)
    ensures r == -TwoTo31 < 0
  {
    var t :| IsNextSetBit(bs, index, t) && r == NextAsReturned(index, t);
    NextUnique(bs, index, t, TwoTo31);
  }

  /** The loop of `nextSetBit` over the words after the one holding `index`. */
  method NextInLaterWords(bs: LongBitSet, index: int) returns (r: int)
    requires Valid(bs) && 0 <= index < bs.numBits
    requires forall p :: index % 64 <= p < 64 ==> !bs.bits[index / 64][p]
    ensures IsNextSetBit(bs, index, r)
    ensures r == -1 || index / 64 < r / 64
  {
    var i := index / 64;
    while i + 1 < bs.numWords
      invariant index / 64 <= i < bs.numWords
      invariant forall w :: index / 64 < w <= i ==> bs.bits[w] == Zero
    {
      i := i + 1;
      var word := bs.bits[i];
      if word != Zero {
        r := 64 * i + NumberOfTrailingZeros(word);
        NextFound(bs, index, i, NumberOfTrailingZeros(word), r);
        return;
      }
    }
    NextNotFound(bs, index);
    return -1;
  }

  /** The first word of the forward scan, `bits[index >> 6] >> index`, holds the answer when it is non-zero. */
  lemma NextInFirstWord(bs: LongBitSet, index: int, r: int)
    requires Valid(bs) && 0 <= index < bs.numBits
    requires Shr(bs.bits[index / 64], index) != Zero
    requires r == index + NumberOfTrailingZeros(Shr(bs.bits[index / 64], index))
    ensures IsNextSetBit(bs, index, r) && r / 64 == index / 64
  {
    var i := index / 64;
    var t := NumberOfTrailingZeros(Shr(bs.bits[i], index));
    LowestAfterShr(bs.bits[i], index);
    NextFound(bs, index, i, index % 64 + t, r);
  }

  /** When `bits[index >> 6] >> index` is zero, the word holds nothing at or above `index`. */
  lemma NextNotInFirstWord(bs: LongBitSet, index: int)
    requires WellFormed(bs) && 0 <= index < bs.numBits
    requires Shr(bs.bits[index / 64], index) == Zero
    ensures forall p :: index % 64 <= p < 64 ==> !bs.bits[index / 64][p]
  {
    LowestAfterShr(bs.bits[index / 64], index);
  }

  /**
   * Bit `q` of word `i` is the answer of the forward scan when the bits
   * between `index` and it are all clear.
   */
  lemma NextFound(bs: LongBitSet, index: int, i: int, q: int, r: int)
    requires Valid(bs) && 0 <= index < bs.numBits
    requires index / 64 <= i < bs.numWords && 0 <= q < 64 && r == 64 * i + q && index <= r
    requires bs.bits[i][q]
    requires i == index / 64 ==> forall p :: index % 64 <= p < q ==> !bs.bits[i][p]
    requires i > index / 64 ==> forall p :: index % 64 <= p < 64 ==> !bs.bits[index / 64][p]
    requires i > index / 64 ==> forall p :: 0 <= p < q ==> !bs.bits[i][p]
    requires forall w :: index / 64 < w < i ==> bs.bits[w] == Zero
    ensures IsNextSetBit(bs, index, r)
  {
    PositionOf(bs, i, q);
    assert r in Members(bs);
    forall j | index <= j < r
      ensures !IsSet(bs, j)
    {
      PositionOf(bs, j / 64, j % 64);
    }
  }

  /** With the rest of the first word and every later word clear, the forward scan finds nothing. */
  lemma NextNotFound(bs: LongBitSet, index: int)
    requires Valid(bs) && 0 <= index < bs.numBits
    requires forall p :: index % 64 <= p < 64 ==> !bs.bits[index / 64][p]
    requires forall w :: index / 64 < w < bs.numWords ==> bs.bits[w] == Zero
    ensures IsNextSetBit(bs, index, -1)
  {
    forall j | index <= j < bs.numBits
      ensures !IsSet(bs, j)
    {
      PositionOf(bs, j / 64, j % 64);
    }
  }

  /**
   * What `prevSetBit` returns when the answer is `t`. Both
   * `(i << 6) + subIndex - numberOfLeadingZeros(word)` and
   * `(i << 6) + 63 - numberOfLeadingZeros(word)` are `int` computations, so
   * a position of 2^31 or more comes back reduced to 32 bits.
   */
  function PrevAsReturned(t: int): int {
    if t == -1 then -1 else Wrap32(t)
  }

  /** `r` is what `prevSetBit(index)` as written returns: the answer, reduced to an `int`. */
  ghost predicate PrevSetBitAsWritten(bs: LongBitSet, index: int, r: int)
    requires WellFormed(bs) && 0 <= index < bs.numBits
  {
    exists t :: IsPrevSetBit(bs, index, t) && r == PrevAsReturned(t)
  }

  /**
   * `prevSetBit(index)`. The first word is shifted left by `63 - index % 64`,
   * which drops every bit above the index; it does not depend on the ghost
   * bits. Every result is computed in `int` arithmetic, so it is exact only
   * for sets of at most 2^31 bits.
   */
  method PrevSetBit(bs: LongBitSet, index: int) returns (r: int)
    requires WellFormed(bs) && 0 <= index < bs.numBits
    ensures PrevSetBitAsWritten(bs, index, r)
    ensures bs.numBits <= TwoTo31 ==> IsPrevSetBit(bs, index, r)
  {
    var i := index / 64;
    var sub := index % 64;
    var word := Shl(bs.bits[i], 63 - sub);
    var t;
    if word != Zero {
      t := 64 * i + sub - NumberOfLeadingZeros(word);
      PrevInFirstWord(bs, index, t);
    } else {
      PrevNotInFirstWord(bs, index);
      t := PrevInEarlierWords(bs, index);
    }
    // Each `int` operation of the result wraps, which together is the
    // position reduced to 32 bits.
    r := if t == -1 then -1 else Wrap32(t);
    PrevReturned(bs, index, t, r);
  }

  /**
   * `prevSetBit(index)` with the results computed in `long` arithmetic:
   * the greatest member at or before `index`, or -1, for sets of any length.
   */
  method PrevSetBitInLong(bs: LongBitSet, index: int) returns (r: int)
    requires WellFormed(bs) && 0 <= index < bs.numBits
    ensures IsPrevSetBit(bs, index, r)
  {
    var i := index / 64;
    var sub := index % 64;
    var word := Shl(bs.bits[i], 63 - sub);
    if word != Zero {
      r := 64 * i + sub - NumberOfLeadingZeros(word);
      PrevInFirstWord(bs, index, r);
    } else {
      PrevNotInFirstWord(bs, index);
      r := PrevInEarlierWords(bs, index);
    }
  }

  /** The value returned for the answer `t` meets the as-written contract, and is `t` itself for sets of at most 2^31 bits. */
  lemma PrevReturned(bs: LongBitSet, index: int, t: int, r: int)
    requires WellFormed(bs) && 0 <= index < bs.numBits
    requires IsPrevSetBit(bs, index, t) && r == PrevAsReturned(t)
    ensures PrevSetBitAsWritten(bs, index, r)
    ensures bs.numBits <= TwoTo31 ==> IsPrevSetBit(bs, index, r)
  {
    if t != -1 {
      WrapInRange(t);
    }
  }

  /** There is only one answer to `prevSetBit`. */
  lemma PrevUnique(bs: LongBitSet, index: int, t: int, u: int)
    requires WellFormed(bs) && 0 <= index < bs.numBits
    requires IsPrevSetBit(bs, index, t) && IsPrevSetBit(bs, index, u)
    ensures t == u
  {
    if t != -1 && u != -1 {
      assert !(t < u) && !(u < t);
    }
  }

  /**
   * When the greatest member at or before `index` is position 2^31,
   * `prevSetBit` as written returns -2^31: `(i << 6)` overflows the `int`.
   */
  lemma PrevSetBitWrapsPastIntRange(bs: LongBitSet, index: int, r: int)
    requires WellFormed(bs) && 0 <= index < bs.numBits
    requires IsPrevSetBit(bs, index, TwoTo31)
    requires PrevSetBitAsWritten(bs, index, r)
    ensures r == -TwoTo31 < 0
  {
    var t :| IsPrevSetBit(bs, index, t) && r == PrevAsReturned(t);
    PrevUnique(bs, index, t, TwoTo31);
  }

  /** The loop of `prevSetBit` over the words before the one holding `index`. */
  method PrevInEarlierWords(bs: LongBitSet, index: int) returns (r: int)
    requires WellFormed(bs) && 0 <= index < bs.numBits
    requires forall p :: 0 <= p <= index % 64 ==> !bs.bits[index / 64][p]
    ensures IsPrevSetBit(bs, index, r)
  {
    var i := index / 64;
    while i - 1 >= 0
      invariant 0 <= i <= index / 64
      invariant forall w :: i <= w < index / 64 ==> bs.bits[w] == Zero
    {
      i := i - 1;
      var word := bs.bits[i];
      if word != Zero {
        r := 64 * i + 63 - NumberOfLeadingZeros(word);
        PrevFound(bs, index, i, 63 - NumberOfLeadingZeros(word), r);
        return;
      }
    }
    PrevNotFound(bs, index);
    return -1;
  }

  /** The first word of the backward scan, `bits[index >> 6] << (63 - (index & 0x3f))`, holds the answer when it is non-zero. */
  lemma PrevInFirstWord(bs: LongBitSet, index: int, r: int)
    requires WellFormed(bs) && 0 <= index < bs.numBits
    requires Shl(bs.bits[index / 64], 63 - index % 64) != Zero
    requires r == 64 * (index / 64) + index % 64 - NumberOfLeadingZeros(Shl(bs.bits[index / 64], 63 - index % 64))
    ensures IsPrevSetBit(bs, index, r)
  {
    var i, s := index / 64, index % 64;
    var z := NumberOfLeadingZeros(Shl(bs.bits[i], 63 - s));
    assert 0 <= s - z && bs.bits[i][s - z] && forall p :: s - z < p <= s ==> !bs.bits[i][p] by {
      HighestAfterShl(bs.bits[i], s, Shl(bs.bits[i], 63 - s), z);
    }
    assert r == 64 * i + (s - z) <= index;
    PrevFound(bs, index, i, s - z, r);
  }

  /** When `bits[index >> 6] << (63 - (index & 0x3f))` is zero, the word holds nothing at or below `index`. */
  lemma PrevNotInFirstWord(bs: LongBitSet, index: int)
    requires WellFormed(bs) && 0 <= index < bs.numBits
    requires Shl(bs.bits[index / 64], 63 - index % 64) == Zero
    ensures forall p :: 0 <= p <= index % 64 ==> !bs.bits[index / 64][p]
  {
    var word := Shl(bs.bits[index / 64], 63 - index % 64);
    HighestAfterShl(bs.bits[index / 64], index % 64, word, 64);
  }

  /**
   * Bit `q` of word `i` is the answer of the backward scan when the bits
   * between it and `index` are all clear.
   */
  lemma PrevFound(bs: LongBitSet, index: int, i: int, q: int, r: int)
    requires WellFormed(bs) && 0 <= index < bs.numBits
    requires 0 <= i <= index / 64 && 0 <= q < 64 && r == 64 * i + q && r <= index
    requires bs.bits[i][q]
    requires i == index / 64 ==> forall p :: q < p <= index % 64 ==> !bs.bits[i][p]
    requires i < index / 64 ==> forall p :: 0 <= p <= index % 64 ==> !bs.bits[index / 64][p]
    requires i < index / 64 ==> forall p :: q < p < 64 ==> !bs.bits[i][p]
    requires forall w :: i < w < index / 64 ==> bs.bits[w] == Zero
    ensures IsPrevSetBit(bs, index, r)
  {
    PositionOf(bs, i, q);
    assert r in Members(bs);
    forall j | r < j <= index
      ensures !IsSet(bs, j)
    {
      PositionOf(bs, j / 64, j % 64);
    }
  }

  /** With the low part of the first word and every earlier word clear, the backward scan finds nothing. */
  lemma PrevNotFound(bs: LongBitSet, index: int)
    requires WellFormed(bs) && 0 <= index < bs.numBits
    requires forall p :: 0 <= p <= index % 64 ==> !bs.bits[index / 64][p]
    requires forall w :: 0 <= w < index / 64 ==> bs.bits[w] == Zero
    ensures IsPrevSetBit(bs, index, -1)
  {
    forall j | 0 <= j <= index
      ensures !IsSet(bs, j)
    {
      PositionOf(bs, j / 64, j % 64);
    }
  }
}

=== FILE: single_bit.dfy ===
/**
 * The single-bit operations `get`, `set`, `clear`, `flip`, `getAndSet` and
 * `getAndClear`. Each one selects word `index >> 6` and the mask
 * `1L << index`, whose shift distance Java reduces to `index % 64`. Every
 * operation asserts `0 <= index < numBits`, which is taken as its
 * precondition.
 */
module SingleBit {
  import opened Words
  import opened Storage

  /** The mask `1L << index`: only bit `index % 64` set. */
  function BitMask(index: int): Word {
    Shl(One, index)
  }

  /** Replaces word `w` of the backing store. */
  function WithWord(bs: LongBitSet, w: int, word: Word): (r: LongBitSet)
    requires 0 <= w < |bs.bits|
  {
    bs.(bits := bs.bits[w := word])
  }

  /** `get(index)`: whether `index` is in the set. */
  function Get(bs: LongBitSet, index: int): (r: bool)
    requires WellFormed(bs) && 0 <= index < bs.numBits
    ensures 0 <= index < 64 * |bs.bits| && r == IsSet(bs, index)
    ensures r <==> index in Members(bs)
  {
    MaskTestsBit(bs.bits[index / 64], index);
    And(bs.bits[index / 64], BitMask(index)) != Zero
  }

  /** `set(index)`: adds `index`; no other position of the backing store changes. */
  function Set(bs: LongBitSet, index: int): (r: LongBitSet)
    requires WellFormed(bs) && 0 <= index < bs.numBits
    ensures WellFormed(r) && r.numBits == bs.numBits && |r.bits| == |bs.bits|
    ensures forall i :: 0 <= i < 64 * |bs.bits| ==> IsSet(r, i) == (i == index || IsSet(bs, i))
    ensures Valid(bs) ==> Valid(r)
    ensures Members(r) == Members(bs) + {index}
  {
    var w := index / 64;
    WithWord(bs, w, Or(bs.bits[w], BitMask(index)))
  }

  /** `clear(index)`: removes `index`; no other position of the backing store changes. */
  function Clear(bs: LongBitSet, index: int): (r: LongBitSet)
    requires WellFormed(bs) && 0 <= index < bs.numBits
    ensures WellFormed(r) && r.numBits == bs.numBits && |r.bits| == |bs.bits|
    ensures forall i :: 0 <= i < 64 * |bs.bits| ==> IsSet(r, i) == (i != index && IsSet(bs, i))
    ensures Valid(bs) ==> Valid(r)
    ensures Members(r) == Members(bs) - {index}
  {
    var w := index / 64;
    WithWord(bs, w, And(bs.bits[w], Not(BitMask(index))))
  }

  /** `flip(index)`: toggles `index`; no other position of the backing store changes. */
  function Flip(bs: LongBitSet, index: int): (r: LongBitSet)
    requires WellFormed(bs) && 0 <= index < bs.numBits
    ensures WellFormed(r) && r.numBits == bs.numBits && |r.bits| == |bs.bits|
    ensures forall i :: 0 <= i < 64 * |bs.bits| ==> IsSet(r, i) == (IsSet(bs, i) != (i == index))
    ensures Valid(bs) ==> Valid(r)
    ensures index in Members(bs) ==> Members(r) == Members(bs) - {index}
    ensures index !in Members(bs) ==> Members(r) == Members(bs) + {index}
  {
    var w := index / 64;
    WithWord(bs, w, Xor(bs.bits[w], BitMask(index)))
  }

  /** `getAndSet(index)`: the membership of `index` before the call, and the set with `index` added. */
  function GetAndSet(bs: LongBitSet, index: int): (r: (bool, LongBitSet))
    requires WellFormed(bs) && 0 <= index < bs.numBits
    ensures r.0 == Get(bs, index)
    ensures r.1 == Set(bs, index)
  {
    var w := index / 64;
    var mask := BitMask(index);
    var prior := And(bs.bits[w], mask) != Zero;
    (prior, WithWord(bs, w, Or(bs.bits[w], mask)))
  }

  /** `getAndClear(index)`: the membership of `index` before the call, and the set with `index` removed. */
  function GetAndClear(bs: LongBitSet, index: int): (r: (bool, LongBitSet))
    requires WellFormed(bs) && 0 <= index < bs.numBits
    ensures r.0 == Get(bs, index)
    ensures r.1 == Clear(bs, index)
  {
    var w := index / 64;
    var mask := BitMask(index);
    var prior := And(bs.bits[w], mask) != Zero;
    (prior, WithWord(bs, w, And(bs.bits[w], Not(mask))))
  }

  /** After `set(i)`, `get(i)` is true and `get(j)` is unchanged for every other `j`. */
  lemma SetThenGet(bs: LongBitSet, i: int, j: int)
    requires WellFormed(bs) && 0 <= i < bs.numBits && 0 <= j < bs.numBits
    ensures Get(Set(bs, i), j) == (j == i || Get(bs, j))
  {
  }

  /** After `clear(i)`, `get(i)` is false and `get(j)` is unchanged for every other `j`. */
  lemma ClearThenGet(bs: LongBitSet, i: int, j: int)
    requires WellFormed(bs) && 0 <= i < bs.numBits && 0 <= j < bs.numBits
    ensures Get(Clear(bs, i), j) == (j != i && Get(bs, j))
  {
  }

  /** Flipping the same bit twice gives back the same backing store. */
  lemma FlipTwice(bs: LongBitSet, i: int)
    requires WellFormed(bs) && 0 <= i < bs.numBits
    ensures Flip(Flip(bs, i), i) == bs
  {
    var w := i / 64;
    var twice := Flip(Flip(bs, i), i);
    assert twice.bits[w] == bs.bits[w];
    assert twice.bits == bs.bits;
  }
}

=== FILE: storage.dfy ===
/**
 * The representation of a `LongBitSet`: a backing sequence of 64-bit words,
 * the number of bits in use (`numBits`) and the number of words that hold
 * them (`numWords`).
 *
 * Position `i` lives in word `i / 64` at bit `i % 64`. Positions at or past
 * `numBits` are "ghost bits": the class keeps them clear, and several of its
 * operations rely on that. `Valid` is that invariant; `WellFormed` is the
 * weaker shape that both constructors establish whatever the words hold.
 */
module Storage {
  import opened Words

  /** The Java exceptions the modelled code can throw. */
  datatype Error = IllegalArgument | NegativeArraySize | IndexOutOfBounds

  datatype Result<T> = Ok(value: T) | Err(error: Error)

  datatype LongBitSet = LongBitSet(bits: seq<Word>, numBits: int, numWords: int)

  /** The largest bit count whose word count is a Java `int`: 2^31 - 1 words. */
  const MaxBits: int := 64 * (TwoTo31 - 1)

  /** The bit counts for which `bits2words` computes its word count without overflowing the `int`. */
  predicate WordCountFits(numBits: int) {
    -64 * TwoTo31 - 63 <= numBits <= MaxBits
  }

  /**
   * `bits2words`: the number of words needed for `numBits` bits. The source
   * computes `(int) ((numBits - 1) >> 6) + 1`; an arithmetic shift right by
   * six is floor division by 64, as Dafny's `/` is for a positive divisor,
   * so 0 bits need 0 words. The cast keeps the low 32 bits and the `+ 1` is
   * `int` arithmetic, so the count wraps once it leaves the `int` range.
   */
  function Bits2Words(numBits: int): (r: int)
    ensures -TwoTo31 <= r < TwoTo31
    ensures WordCountFits(numBits) <==> (r - 1) * 64 < numBits <= r * 64
  {
    WrapInRange((numBits - 1) / 64 + 1);
    Wrap32((numBits - 1) / 64 + 1)
  }

  /** The words needed for `n >= 0` bits, up to `MaxBits`, is the ceiling of `n / 64`; none for none. */
  lemma Bits2WordsIsCeiling(n: int)
    requires 0 <= n <= MaxBits
    ensures Bits2Words(n) == (n + 63) / 64
    ensures Bits2Words(n) == 0 <==> n == 0
    ensures 0 <= Bits2Words(n) && Bits2Words(n) * 64 - 64 < n <= Bits2Words(n) * 64
  {
  }

  /**
   * What both constructors establish about the shape when the word count
   * fits an `int`. A Java array has fewer than 2^31 elements.
   */
  predicate WellFormed(bs: LongBitSet) {
    && WordCountFits(bs.numBits)
    && 0 <= bs.numWords && bs.numWords == Bits2Words(bs.numBits) && bs.numWords <= |bs.bits| < TwoTo31
  }

  /** Position `i` of the backing store is set. */
  predicate IsSet(bs: LongBitSet, i: int)
    requires 0 <= i < 64 * |bs.bits|
  {
    bs.bits[i / 64][i % 64]
  }

  /** No position at or past `numBits` is set: the ghost bits are clear. */
  predicate GhostBitsClear(bs: LongBitSet) {
    forall i :: 0 <= i < 64 * |bs.bits| && bs.numBits <= i ==> !IsSet(bs, i)
  }

  predicate Valid(bs: LongBitSet) {
    WellFormed(bs) && GhostBitsClear(bs)
  }

  /** The set of positions in [0, numBits) that are set: the abstract value. */
  ghost function Members(bs: LongBitSet): set<int>
    requires WellFormed(bs)
  {
    set i | 0 <= i < bs.numBits && IsSet(bs, i)
  }

  /**
   * `new LongBitSet(numBits)`: an exactly sized array of clear words. Java
   * throws `NegativeArraySizeException` when the word count is negative:
   * for `numBits <= -64`, and for bit counts past `MaxBits` whose count
   * wraps to a negative `int`. A count that wraps to a non-negative `int`
   * gives a set with too few words.
   */
  function New(numBits: int): (r: Result<LongBitSet>)
    ensures WordCountFits(numBits) ==> (r.Err? <==> numBits <= -64)
    ensures r.Err? ==> r.error == NegativeArraySize
    ensures r.Ok? ==> r.value.numBits == numBits && |r.value.bits| == r.value.numWords
    ensures r.Ok? ==> forall w :: 0 <= w < |r.value.bits| ==> r.value.bits[w] == Zero
    ensures r.Ok? && WordCountFits(numBits) ==> Valid(r.value) && Members(r.value) == {}
  {
    var numWords := Bits2Words(numBits);
    if numWords < 0 then
      Err(NegativeArraySize)
    else
      Ok(LongBitSet(Repeat(Zero, numWords), numBits, numWords))
  }

  /**
   * `new LongBitSet(storedBits, numBits)`: adopts the given words, which may
   * be more than needed. Throws `IllegalArgumentException` when they are too
   * few. The constructor's `assert verifyGhostBitsClear()` only runs with
   * Java assertions enabled and is not part of this function; see
   * `VerifyGhostBitsClear`.
   */
  function FromArray(stored: seq<Word>, numBits: int): (r: Result<LongBitSet>)
    ensures r.Err? <==> Bits2Words(numBits) > |stored|
    ensures r.Err? ==> r.error == IllegalArgument
    ensures r.Ok? ==> r.value.bits == stored && r.value.numBits == numBits
    ensures r.Ok? && -64 < numBits <= MaxBits && |stored| < TwoTo31 ==> WellFormed(r.value)
  {
    var numWords := Bits2Words(numBits);
    if numWords > |stored| then
      Err(IllegalArgument)
    else
      Ok(LongBitSet(stored, numBits, numWords))
  }

  /**
   * Past `MaxBits` the word count wraps: one bit more than `MaxBits` gives
   * -2^31 words, and 2^38 bits give 0 words.
   */
  lemma WordCountPastMaxBits()
    ensures Bits2Words(MaxBits) == TwoTo31 - 1
    ensures Bits2Words(MaxBits + 1) == -TwoTo31
    ensures Bits2Words(0x40_0000_0000) == 0
  {
  }

  /**
   * Both constructors accept or reject a bit count past `MaxBits` by its
   * wrapped word count: `new LongBitSet(MaxBits + 1)` throws, while
   * `new LongBitSet(2^38)` and `new LongBitSet(new long[0], 2^38)` build a
   * set of 2^38 bits over no words at all.
   */
  lemma ConstructorsPastMaxBits()
    ensures New(MaxBits + 1) == Err(NegativeArraySize)
    ensures New(0x40_0000_0000) == Ok(LongBitSet([], 0x40_0000_0000, 0))
    ensures FromArray([], 0x40_0000_0000) == Ok(LongBitSet([], 0x40_0000_0000, 0))
    ensures !WellFormed(LongBitSet([], 0x40_0000_0000, 0))
  {
    WordCountPastMaxBits();
  }

  /**
   * `verifyGhostBitsClear`: every word from `numWords` on is zero, and the
   * last used word has nothing at or above bit `numBits % 64`. Reading word
   * `numWords - 1` when `numWords` is 0 but `numBits` is not a multiple of
   * 64 (a negative `numBits`), or starting the scan at a negative
   * `numWords`, throws.
   */
  method VerifyGhostBitsClear(bs: LongBitSet) returns (r: Result<bool>)
    requires bs.numWords == Bits2Words(bs.numBits) && bs.numWords <= |bs.bits| < TwoTo31
    ensures 0 <= bs.numBits <= MaxBits ==> r == Ok(GhostBitsClear(bs))
    ensures -64 * TwoTo31 - 63 <= bs.numBits <= -64 ==> r == Err(IndexOutOfBounds)
    ensures -64 < bs.numBits < 0 ==>
              r == if forall w :: 0 <= w < |bs.bits| ==> bs.bits[w] == Zero then Err(IndexOutOfBounds) else Ok(false)
  {
    if bs.numWords < 0 {
      return Err(IndexOutOfBounds);
    }
    var i := bs.numWords;
    while i < |bs.bits|
      invariant bs.numWords <= i <= |bs.bits|
      invariant forall w :: bs.numWords <= w < i ==> bs.bits[w] == Zero
    {
      if bs.bits[i] != Zero {
        PositionOf(bs, i, NumberOfTrailingZeros(bs.bits[i]));
        return Ok(false);
      }
      i := i + 1;
    }
    if 0 <= bs.numBits <= MaxBits {
      GhostBitsOfLastWord(bs);
    }
    if bs.numBits % 64 == 0 {
      return Ok(true);
    }
    var mask := Shl(AllOnes, bs.numBits);
    if bs.numWords - 1 < 0 {
      return Err(IndexOutOfBounds);
    }
    r := Ok(And(bs.bits[bs.numWords - 1], mask) == Zero);
  }

  /** Bit `q` of word `w` is position `64 * w + q`. */
  lemma PositionOf(bs: LongBitSet, w: int, q: int)
    requires 0 <= w < |bs.bits| && 0 <= q < 64
    ensures 0 <= 64 * w + q < 64 * |bs.bits|
    ensures (64 * w + q) / 64 == w && (64 * w + q) % 64 == q
    ensures IsSet(bs, 64 * w + q) == bs.bits[w][q]
  {
  }

  /**
   * With the words past `numWords` zero, the ghost bits are clear exactly
   * when the last used word has nothing at or above bit `numBits % 64`;
   * nothing needs checking when `numBits` is a multiple of 64.
   */
  lemma GhostBitsOfLastWord(bs: LongBitSet)
    requires WellFormed(bs) && 0 <= bs.numBits
    requires forall w :: bs.numWords <= w < |bs.bits| ==> bs.bits[w] == Zero
    ensures bs.numBits % 64 == 0 ==> GhostBitsClear(bs)
    ensures bs.numBits % 64 != 0 ==>
              (GhostBitsClear(bs) <==> And(bs.bits[bs.numWords - 1], Shl(AllOnes, bs.numBits)) == Zero)
  {
    GhostBitsOnlyInLastWord(bs);
    if bs.numBits % 64 != 0 && And(bs.bits[bs.numWords - 1], Shl(AllOnes, bs.numBits)) != Zero {
      GhostBitInLastWord(bs);
    }
  }

  /** With the words past `numWords` zero, a set ghost bit lies in the last used word, at or above bit `numBits % 64`. */
  lemma GhostBitsOnlyInLastWord(bs: LongBitSet)
    requires WellFormed(bs) && 0 <= bs.numBits
    requires forall w :: bs.numWords <= w < |bs.bits| ==> bs.bits[w] == Zero
    ensures forall i :: 0 <= i < 64 * |bs.bits| && bs.numBits <= i && IsSet(bs, i) ==>
              && bs.numBits % 64 != 0 && i / 64 == bs.numWords - 1
              && And(bs.bits[bs.numWords - 1], Shl(AllOnes, bs.numBits))[i % 64]
  {
    forall i | 0 <= i < 64 * |bs.bits| && bs.numBits <= i
      ensures IsSet(bs, i) ==> bs.numBits % 64 != 0 && i / 64 == bs.numWords - 1
      ensures IsSet(bs, i) ==> And(bs.bits[bs.numWords - 1], Shl(AllOnes, bs.numBits))[i % 64]
    {
      var w := i / 64;
      WordOfGhostBit(bs.numBits, i);
      if w != bs.numWords - 1 || bs.numBits % 64 == 0 {
        assert bs.bits[w] == Zero;
      }
    }
  }

  /** A position at or past `n` lies in the last of the `bits2words(n)` words or later, and past them when `n` is a multiple of 64. */
  lemma WordOfGhostBit(n: int, i: int)
    requires 0 <= n <= i && n <= MaxBits
    ensures Bits2Words(n) - 1 <= i / 64
    ensures n % 64 == 0 ==> Bits2Words(n) <= i / 64
    ensures n % 64 != 0 ==> 64 * (Bits2Words(n) - 1) + n % 64 == n
  {
  }

  /** A bit of the last used word at or above `numBits % 64` is a set ghost bit. */
  lemma GhostBitInLastWord(bs: LongBitSet)
    requires WellFormed(bs) && 0 <= bs.numBits && bs.numBits % 64 != 0
    requires And(bs.bits[bs.numWords - 1], Shl(AllOnes, bs.numBits)) != Zero
    ensures !GhostBitsClear(bs)
  {
    var last := bs.numWords - 1;
    var m := And(bs.bits[last], StartMask(bs.numBits));
    var q := NumberOfTrailingZeros(m);
    assert m[q];
    StartMaskBits(bs.numBits);
    assert bs.bits[last][q] && bs.numBits % 64 <= q;
    WordOfGhostBit(bs.numBits, bs.numBits);
    PositionOf(bs, last, q);
    assert IsSet(bs, 64 * last + q);
  }

  /** `length()`: the number of bits in use, which the backing store always has room for. */
  function Length(bs: LongBitSet): (r: int)
    ensures WellFormed(bs) ==> r <= 64 * |bs.bits| && r <= 64 * bs.numWords
  {
    bs.numBits
  }

  /** `getBits()`: a copy of the whole backing store, ghost words included. */
  method GetBits(bs: LongBitSet) returns (r: seq<Word>)
    ensures r == bs.bits
  {
    r := [];
    var i := 0;
    while i < |bs.bits|
      invariant 0 <= i <= |bs.bits|
      invariant r == bs.bits[..i]
    {
      r := r + [bs.bits[i]];
      i := i + 1;
    }
  }
}

=== FILE: words.dfy ===
/**
 * 64-bit words with the semantics of Java's `long`.
 *
 * A word is its two's-complement bit pattern: a sequence of 64 bits in which
 * index `p` is the bit of weight 2^p, so index 63 is the sign bit. The
 * bitwise operators act position by position. The three shift operators take
 * an arbitrary integer distance of which only the low six bits count
 * (section 15.19 of the Java Language Specification); `n & 0x3f` equals
 * `n % 64` with Dafny's Euclidean remainder, negative `n` included, and that
 * is how every distance is reduced here. `Long.numberOfTrailingZeros` and
 * `Long.numberOfLeadingZeros` locate the lowest and the highest set bit.
 */
module Words {

  type Word = s: seq<bool> | |s| == 64 witness Repeat(false, 64)

  /** `n` copies of `x`. */
  function Repeat<T>(x: T, n: nat): (r: seq<T>)
    ensures |r| == n
    ensures forall i :: 0 <= i < n ==> r[i] == x
  {
    seq(n, _ => x)
  }

  /** Java's `0L`. */
  const Zero: Word := Repeat(false, 64)

  /** Java's `-1L`: every bit set. */
  const AllOnes: Word := Repeat(true, 64)

  /** Java's `1L`: only bit 0 set. */
  const One: Word := [true] + Repeat(false, 63)

  /** Java `a | b`. */
  function Or(a: Word, b: Word): Word {
    seq(64, p requires 0 <= p < 64 => a[p] || b[p])
  }

  /** Java `a & b`. */
  function And(a: Word, b: Word): Word {
    seq(64, p requires 0 <= p < 64 => a[p] && b[p])
  }

  /** Java `a ^ b`. */
  function Xor(a: Word, b: Word): Word {
    seq(64, p requires 0 <= p < 64 => a[p] != b[p])
  }

  /** Java `~a`. */
  function Not(a: Word): Word {
    seq(64, p requires 0 <= p < 64 => !a[p])
  }

  /** Java `w << n`: bit `p` of the result is bit `p - n % 64` of `w`; zeros come in from the right. */
  function Shl(w: Word, n: int): Word {
    seq(64, p requires 0 <= p < 64 => n % 64 <= p && w[p - n % 64])
  }

  /** Java `w >>> n`: bit `p` of the result is bit `p + n % 64` of `w`; zeros come in from the left. */
  function Ushr(w: Word, n: int): Word {
    seq(64, p requires 0 <= p < 64 => p + n % 64 < 64 && w[p + n % 64])
  }

  /** Java `w >> n`: like `>>>`, except that copies of the sign bit come in from the left. */
  function Shr(w: Word, n: int): Word {
    seq(64, p requires 0 <= p < 64 => if p + n % 64 < 64 then w[p + n % 64] else w[63])
  }

  /** `(w & (1L << n)) != 0` tests bit `n % 64` of `w`. */
  lemma MaskTestsBit(w: Word, n: int)
    ensures (And(w, Shl(One, n)) != Zero) == w[n % 64]
  {
    if w[n % 64] {
      assert And(w, Shl(One, n))[n % 64];
    } else {
      assert And(w, Shl(One, n)) == Zero;
    }
  }

  /** A word none of whose bits is set is `0L`. */
  lemma AllClearIsZero(w: Word)
    requires forall q :: 0 <= q < 64 ==> !w[q]
    ensures w == Zero
  {
  }

  /** The lowest set position at or above `k`, or 64 when there is none. */
  function LowestFrom(w: Word, k: int): (r: int)
    requires 0 <= k <= 64
    ensures k <= r <= 64
    ensures r < 64 ==> w[r]
    ensures forall q :: k <= q < r ==> !w[q]
    decreases 64 - k
  {
    if k == 64 then 64 else if w[k] then k else LowestFrom(w, k + 1)
  }

  /** Java `Long.numberOfTrailingZeros(w)`: the position of the lowest set bit, or 64 when `w` is zero. */
  function NumberOfTrailingZeros(w: Word): (r: int)
    ensures 0 <= r <= 64
    ensures r == 64 <==> w == Zero
    ensures r < 64 ==> w[r]
    ensures forall q :: 0 <= q < r ==> !w[q]
  {
    if LowestFrom(w, 0) == 64 then
      AllClearIsZero(w);
      64
    else
      LowestFrom(w, 0)
  }

  /** The highest set position at or below `k`, or -1 when there is none. */
  function HighestFrom(w: Word, k: int): (r: int)
    requires -1 <= k < 64
    ensures -1 <= r <= k
    ensures 0 <= r ==> w[r]
    ensures forall q :: r < q <= k ==> !w[q]
    decreases k + 1
  {
    if k == -1 then -1 else if w[k] then k else HighestFrom(w, k - 1)
  }

  /** Java `Long.numberOfLeadingZeros(w)`: 63 minus the position of the highest set bit, or 64 when `w` is zero. */
  function NumberOfLeadingZeros(w: Word): (r: int)
    ensures 0 <= r <= 64
    ensures r == 64 <==> w == Zero
    ensures r < 64 ==> w[63 - r]
    ensures forall q :: 63 - r < q < 64 ==> !w[q]
  {
    if HighestFrom(w, |w| - 1) == -1 then
      AllClearIsZero(w);
      64
    else
      63 - HighestFrom(w, |w| - 1)
  }

  /**
   * `numberOfTrailingZeros(w >> n)` counts from bit `n % 64` of `w` upwards:
   * the copies of the sign bit that `>>` brings in never come first.
   */
  lemma LowestAfterShr(w: Word, n: int)
    ensures var t := NumberOfTrailingZeros(Shr(w, n));
            (t < 64 ==> n % 64 + t < 64 && w[n % 64 + t]) &&
            forall q :: n % 64 <= q < n % 64 + t && q < 64 ==> !w[q]
  {
    var word := Shr(w, n);
    var s := n % 64;
    ShrBits(w, n);
    var t := NumberOfTrailingZeros(word);
    forall q | s <= q < s + t && q < 64
      ensures !w[q]
    {
      assert !word[q - s];
    }
  }

  /** Bit `p` of `w >> n`, with the distance reduced once. */
  lemma ShrBits(w: Word, n: int)
    ensures forall p :: 0 <= p < 64 ==> Shr(w, n)[p] == if p + n % 64 < 64 then w[p + n % 64] else w[63]
  {
  }

  /** The highest set bit of `w << (63 - s)`, `z` places below the sign bit, is bit `s - z` of `w`. */
  lemma HighestAfterShl(w: Word, s: int, word: Word, z: int)
    requires 0 <= s < 64 && word == Shl(w, 63 - s) && 0 <= z <= 64
    requires z < 64 ==> word[63 - z]
    requires forall q :: 63 - z < q < 64 ==> !word[q]
    ensures z < 64 ==> 0 <= s - z && w[s - z]
    ensures forall q :: s - z < q <= s && 0 <= q ==> !w[q]
  {
    assert (63 - s) % 64 == 63 - s;
    forall q | s - z < q <= s && 0 <= q
      ensures !w[q]
    {
      assert !word[q + 63 - s];
    }
  }


  /** `-1L << n`, the mask of the range operations' first word. */
  function StartMask(n: int): Word {
    Shl(AllOnes, n)
  }

  /** `-1L >>> -n`, the mask of the range operations' last word. */
  function EndMask(n: int): Word {
    Ushr(AllOnes, -n)
  }

  /** `-1L << n` has the bits from `n % 64` upwards set. */
  lemma StartMaskBits(n: int)
    ensures forall p :: 0 <= p < 64 ==> StartMask(n)[p] == (n % 64 <= p)
  {
  }

  /** The distance `-n & 0x3f` of the end mask, against `n & 0x3f` and `(n - 1) & 0x3f`. */
  lemma NegatedDistance(n: int)
    ensures n % 64 == 0 ==> (-n) % 64 == 0 && (n - 1) % 64 == 63
    ensures n % 64 != 0 ==> (-n) % 64 == 64 - n % 64 && (n - 1) % 64 == n % 64 - 1
  {
    var k, e := n / 64, n % 64;
    assert n == 64 * k + e;
    if e == 0 {
      assert -n == 64 * (-k);
      assert n - 1 == 64 * (k - 1) + 63;
    } else {
      assert -n == 64 * (-k - 1) + (64 - e);
      assert n - 1 == 64 * k + (e - 1);
    }
  }

  /**
   * `-1L >>> -n` has the bits up to `(n - 1) % 64` set: the low `n % 64`
   * bits, or all 64 when `n` is a multiple of 64.
   */
  lemma EndMaskBits(n: int)
    ensures forall p :: 0 <= p < 64 ==> EndMask(n)[p] == (p <= (n - 1) % 64)
  {
    var s := (-n) % 64;
    NegatedDistance(n);
    forall p | 0 <= p < 64
      ensures EndMask(n)[p] == (p <= (n - 1) % 64)
    {
      assert EndMask(n)[p] == (p + s < 64 && AllOnes[p + s]);
    }
  }

  const TwoTo31: int := 0x8000_0000
  const TwoTo32: int := 0x1_0000_0000

  /** Java's 32-bit two's-complement wrap-around: the `int` that an `int` computation yields. */
  function Wrap32(x: int): (r: int)
    ensures -TwoTo31 <= r < TwoTo31 && (r - x) % TwoTo32 == 0
  {
    (x + TwoTo31) % TwoTo32 - TwoTo31
  }

  /** A value that fits in an `int` is its own wrap-around; one of 2^31 or more is not. */
  lemma WrapInRange(x: int)
    ensures -TwoTo31 <= x < TwoTo31 <==> Wrap32(x) == x
  {
  }
}
